=== FILE: README.md ===
# Transient Absorption Analyser — data-processing core in Dafny

This project models `DataProcessor`, the processing core of the Transient
Absorption Analyser. The core takes a signal measurement table and an
optional reference ("dark") table, each with a time column followed by
wavelength columns. It then:

- loads each table and checks its structure (`_load_data`);
- checks that the signal holds enough rows for the smoothing window
  (`_validate_data`);
- restricts both tables to the wavelengths (rounded to 0.01) and time points
  they share, and subtracts the reference from the signal (`_find_common_data`);
- smooths every wavelength column with a uniform moving average computed as
  `np.convolve(..., mode='same')` (`_process_data`, `_moving_average`);
- bundles everything, including the wavelength list and the time points, into
  a `ProcessedData` whose `get_summary` reports three counts
  (`process_files`, `_get_wavelengths`, `_get_time_points`).

Modules, in pipeline order:

| module | file | models |
|---|---|---|
| `Outcomes` | outcomes.dfy | `Option`, `Result` and one `Error` constructor per kind of failure |
| `Values` | values.dfy | a cell value: an exact real or `NaN` |
| `Text` | text.dfy | lower-casing, comma-to-point normalisation, digit strings, `str(n)` |
| `Numbers` | numbers.dfy | `float(text)` on the literals the loader meets, and `round(x, 2)` |
| `Frames` | frames.dfy | raw tables, `DataFrame`s with their row labels, boolean-mask filtering |
| `Loader` | loader.dfy | `_load_data` after the file has been read |
| `Validator` | validator.dfy | `_validate_data` |
| `Aligner` | aligner.dfy | `_find_common_data` |
| `Smoother` | smoother.dfy | `_moving_average` and `_process_data` |
| `Pipeline` | pipeline.dfy | `process_files`, `ProcessedData`, `get_summary`, the two extractors |

Each Python exception becomes an `Err` of the matching kind. The Qt signals
become a list of events: progress 10, 30, 50, 80, 100, then `Completed`, or
the progress reached so far followed by `Failed`.

Behaviour of the code worth knowing:

- **Row pairing.** The difference is computed as `signal_filtered[c] -
  reference_filtered[c']` and assigned into a pandas table, so rows are
  paired by their original row labels (their positions in the files), not by
  time. A signal row whose label the filtered reference lacks gets `NaN`.
  `Aligner.AlignPairsOriginalRows` states this pairing.
  `Aligner.AlignShiftedTimes` shows two tables whose shifted time columns get
  a mismatched pair and a `NaN`.
- **Progress.** The progress events are 10, 30, 50, 80 and 100; the first
  is emitted just before the signal file is loaded, and there is no 0.
- **Window checks.** Nothing rejects a window below one up front:
  `_validate_data` only compares the window with the signal's row count, and
  a window below one fails later, inside numpy, when the first wavelength
  column is smoothed (a window of zero only once the column is known not to
  be empty, since `np.convolve` tests its data before its kernel). Validation counts the rows before alignment filters
  them, so a run can pass validation and still fail because a smoothed
  column no longer fits its table (`Pipeline.ValidationPrecedesFiltering`).
- **Repeated headers.** Two headers that become equal once their commas are
  points (say `500.0` and `500,0`, or a time label `500,0` next to a
  wavelength `500.0`) pass the header check, but selecting that name then
  yields a table rather than a column, and the conversion step raises; the
  file is refused as holding invalid data values (`Loader.TimeHeaderClash`,
  `Loader.DuplicateWavelengthExample`).
- **Duplicate wavelengths after rounding.** Distinct headers can still share
  a wavelength rounded to 0.01. Nothing checks this: only the first such
  column is subtracted (`list.index`), paired with the reference's first
  column of that wavelength.

## Model

| member | source | states |
|---|---|---|
| Loader.Load | transient_absorption_analyser/src/core/data_processor.py:110-212 | a table loads exactly when every check passes; each failure is the first failed check, in the code's order: each error kind (unsupported extension, read failure, empty table, too few columns, a bad wavelength header, which names the first such header) is reported exactly when the checks before it pass and its own fails, so invalid data is reported only once every header after the first is a number, and then exactly when two headers coincide after normalisation or some cell is not a number; a loaded frame has the normalised, pairwise distinct headers, row labels 0..n-1 and the parsed value of every cell |
| Loader.NormalizedHeadersPlain | transient_absorption_analyser/src/core/data_processor.py:175 | normalised headers hold no comma, a header without a comma is kept as it is, and normalising twice changes nothing |
| Loader.FirstNonNumber | transient_absorption_analyser/src/core/data_processor.py:179-192 | the header the loop stops at is the first wavelength header that is not a number; all before it are numbers |
| Loader.UpperCaseExtension | transient_absorption_analyser/src/core/data_processor.py:114 | a path ending in any upper- or mixed-case spelling of a supported extension is accepted |
| Loader.MixedCaseExample | transient_absorption_analyser/src/core/data_processor.py:114 | `Scan.Csv` is accepted |
| Loader.SupportedPathCaseInsensitive | transient_absorption_analyser/src/core/data_processor.py:114 | a path is accepted exactly when its lower-cased form is |
| Loader.SupportedPathSuffix | transient_absorption_analyser/src/core/data_processor.py:114 | any path ending in one of the four extensions is accepted, whatever precedes it |
| Loader.UnsupportedExtension | transient_absorption_analyser/src/core/data_processor.py:114-120 | a `.dat` path is refused before the read is looked at |
| Loader.TimeHeaderIgnored | transient_absorption_analyser/src/core/data_processor.py:175-210 | the first header is never parsed as a number: replacing it by a label that, like the old one, repeats no wavelength header changes neither acceptance nor anything in the result except that header |
| Loader.TimeHeaderAccepted | transient_absorption_analyser/src/core/data_processor.py:175-210 | acceptance does not depend on the first header, as long as it repeats no other header |
| Loader.TimeHeaderClash | transient_absorption_analyser/src/core/data_processor.py:175-210 | a first header that coincides with a later one after normalisation is refused, as invalid data when every header check passes |
| Loader.DuplicateWavelengthExample | transient_absorption_analyser/src/core/data_processor.py:175-210 | the headers `Time`, `500.0`, `500,0` are refused as invalid data |
| Loader.TimeHeaderFrame | transient_absorption_analyser/src/core/data_processor.py:175-210 | two accepted tables differing only in their first header load to frames differing only there |
| Loader.LoadRoundTrip | transient_absorption_analyser/src/core/data_processor.py:174-212 | a table of decimal literals, with distinct wavelengths and a time header unlike them, written with either separator loads back to exactly those numbers, in place, with row labels 0..n-1 |
| Loader.WrittenHeadersDistinct | transient_absorption_analyser/src/core/data_processor.py:175-204 | written wavelengths of distinct values under a time header unlike them give headers that never repeat |
| Loader.WrittenHeadersLoad | transient_absorption_analyser/src/core/data_processor.py:174-192 | written wavelength headers normalise to point-separated literals that read back as the written numbers |
| Loader.WrittenCellsLoad | transient_absorption_analyser/src/core/data_processor.py:196-204 | every written cell passes the numeric conversion and reads back as the written number |
| Loader.WrittenHeader | transient_absorption_analyser/src/core/data_processor.py:183-184 | one written wavelength header, normalised and read by `float`, is the written number |
| Numbers.ParseShowLiteral | transient_absorption_analyser/src/core/data_processor.py:200-204 | a literal written with a point or a comma reads back as its value after comma normalisation |
| Numbers.ParseShowLiteralPoint | transient_absorption_analyser/src/core/data_processor.py:184 | `float` of a point-separated literal, with optional sign and exponent, is its value |
| Numbers.NormalizeShowLiteral | transient_absorption_analyser/src/core/data_processor.py:183 | normalising a comma-separated literal gives the point-separated one |
| Numbers.RoundHundredths | transient_absorption_analyser/src/core/data_processor.py:258-259 | the key is within half a hundredth of the value, with ties on the even hundredth |
| Numbers.RoundHundredthsNearest | transient_absorption_analyser/src/core/data_processor.py:258-259 | no whole number of hundredths is nearer the value than its key |
| Numbers.SameKeyClose | transient_absorption_analyser/src/core/data_processor.py:258-262 | two wavelengths with the same key differ by at most 0.01 |
| Text.NormalizeDecimalIdempotent | transient_absorption_analyser/src/core/data_processor.py:175-183 | replacing commas a second time changes nothing, and no comma is left |
| Text.ShowNatRoundTrip | transient_absorption_analyser/src/core/data_processor.py:38-39 | the digits printed for a count read back as that count |
| Text.ShowIntInjective | transient_absorption_analyser/src/core/data_processor.py:40 | distinct windows print differently |
| Validator.Validate | transient_absorption_analyser/src/core/data_processor.py:232-246 | validation passes exactly for a non-empty signal with at least `window` rows, returns the signal unchanged, and names the failed check otherwise |
| Validator.ValidateLoaded | transient_absorption_analyser/src/core/data_processor.py:239-246 | for a loaded table, validation is exactly the test `window <= rows` |
| Pipeline.ValidatedSignalSmooths | transient_absorption_analyser/src/core/data_processor.py:242-246 | a validated signal with a positive window smooths, every column keeping its row count |
| Pipeline.ValidationPrecedesFiltering | transient_absorption_analyser/src/core/data_processor.py:78-86 | a signal that passes validation can lose rows to alignment and then fail in smoothing with a length mismatch |
| Frames.SelectIsStable | transient_absorption_analyser/src/core/data_processor.py:272-277 | boolean-mask selection keeps exactly the flagged positions, in increasing order |
| Frames.FilterRowsRows | transient_absorption_analyser/src/core/data_processor.py:272-277 | each row of a filtered frame is a flagged original row, with its label and cells, in order |
| Frames.FilterRowsKeeps | transient_absorption_analyser/src/core/data_processor.py:272-277 | filtering keeps labels unique and cells numeric |
| Aligner.Keys | transient_absorption_analyser/src/core/data_processor.py:258-259 | the keys are the rounded values of the headers, in order, and fail at the first header that is not a number |
| Aligner.FirstIndex | transient_absorption_analyser/src/core/data_processor.py:283-286 | `list.index`: the first position of the value, or the length when it is absent |
| Aligner.InSetKept | transient_absorption_analyser/src/core/data_processor.py:273-276 | the rows an `isin` mask keeps are exactly those whose time is in the set, in increasing order |
| Aligner.Align | transient_absorption_analyser/src/core/data_processor.py:248-290 | without a reference the signal passes through; otherwise the failures name a header that is not a wavelength, no common wavelength, or no common time; success gives the filtered tables with the signal's and the reference's headers and a difference table on the filtered signal's rows |
| Aligner.AlignKeepsCommonTimes | transient_absorption_analyser/src/core/data_processor.py:267-277 | each filtered table keeps exactly the rows whose time occurs in the other table, in order, with their labels and cells |
| Aligner.AlignDifference | transient_absorption_analyser/src/core/data_processor.py:280-288 | a column is replaced exactly when it is the first with a common key, by the label-paired difference with the reference's first column of that key; all others pass through |
| Aligner.SubtractedColumn | transient_absorption_analyser/src/core/data_processor.py:281-288 | the same, column by column, for the filtered tables |
| Aligner.LabelDiffCells | transient_absorption_analyser/src/core/data_processor.py:288 | a row whose label the reference lacks gets NaN; otherwise it subtracts the first reference row with that label |
| Aligner.AlignPairsOriginalRows | transient_absorption_analyser/src/core/data_processor.py:272-288 | in loaded tables, row l of the signal is subtracted by row l of the reference when that row survived its filter, whatever its time; otherwise NaN |
| Aligner.LookupLabel | transient_absorption_analyser/src/core/data_processor.py:275-277 | a filtered loaded table holds label l exactly when row l was kept, with that row's cells |
| Aligner.AlignSameTimes | transient_absorption_analyser/src/core/data_processor.py:267-288 | when both tables list the same times in order, every difference is between readings at the same time, so it is NaN exactly when one of the two readings is, and never between numeric tables |
| Aligner.AlignShiftedTimes | transient_absorption_analyser/src/core/data_processor.py:267-288 | signal times 0, 1, 2 against reference times 1, 2 give a difference 18 from readings at different times, and NaN |
| Aligner.AlignSelf | transient_absorption_analyser/src/core/data_processor.py:248-290 | a table aligned with itself keeps every row, and each subtracted cell is zero |
| Aligner.AlignedWavelengthsClose | transient_absorption_analyser/src/core/data_processor.py:258-287 | paired columns name wavelengths at most 0.01 apart |
| Aligner.ReplaceEachIsSubtracted | transient_absorption_analyser/src/core/data_processor.py:280-288 | the replacement loop, run over any enumeration of the common keys, gives the column-wise difference table |
| Aligner.AlignAnyLoopOrder | transient_absorption_analyser/src/core/data_processor.py:281-288 | the result does not depend on the iteration order of the set of common wavelengths |
| Smoother.MovingAverage | transient_absorption_analyser/src/core/data_processor.py:310-320 | fails for a negative window, then for an empty column, then for a window of zero, in numpy's order; otherwise the output is as long as the longer of column and kernel |
| Smoother.ConvolveAt | transient_absorption_analyser/src/core/data_processor.py:316-320 | the loop over the whole column adds exactly the weighted samples under the kernel |
| Smoother.ZeroWindowOrder | transient_absorption_analyser/src/core/data_processor.py:316-320 | with a window of zero, an empty column fails as empty and a one-sample column for its empty kernel |
| Smoother.MovingAverageDirect | transient_absorption_analyser/src/core/data_processor.py:316-320 | the direct convolution, output by output, equals the closed-form moving average, including the failures |
| Smoother.SumScaledIsScaledSum | transient_absorption_analyser/src/core/data_processor.py:318 | weighting every sample by 1/window equals dividing the sum by window |
| Smoother.CentredWindow | transient_absorption_analyser/src/core/data_processor.py:316-320 | for a column at least as long as the window, output i covers the samples from i - window/2 on, up to i - window/2 + window, cut at the ends |
| Smoother.MovingAverageWindow | transient_absorption_analyser/src/core/data_processor.py:316-320 | output i is the sum of those samples divided by the full window |
| Smoother.MovingAverageWindowOne | transient_absorption_analyser/src/core/data_processor.py:316-320 | a window of one is the identity |
| Smoother.MovingAverageConstant | transient_absorption_analyser/src/core/data_processor.py:316-320 | on a constant column, output i is the constant times the share of the window that lies inside the column |
| Smoother.MovingAverageConstantInterior | transient_absorption_analyser/src/core/data_processor.py:316-320 | where the whole window fits, a constant column is reproduced |
| Smoother.MovingAverageNaN | transient_absorption_analyser/src/core/data_processor.py:316-320 | an output is NaN exactly when a sample under its window is |
| Smoother.MovingAverageExample | transient_absorption_analyser/src/core/data_processor.py:316-320 | 1, 2, 3, 4, 5 with a window of three smooth to 1, 2, 3, 4, 3 |
| Smoother.MovingAverageShortColumn | transient_absorption_analyser/src/core/data_processor.py:316-320 | a column shorter than the window comes back as long as the window |
| Smoother.SmoothColumns | transient_absorption_analyser/src/core/data_processor.py:302-306 | every column is smoothed and must keep the table's row count; otherwise the error reported is that of the first column that fails, numpy's error or the length mismatch, every earlier column having fitted |
| Smoother.SmoothColumnsFirstError | transient_absorption_analyser/src/core/data_processor.py:302-306 | a negative window, an empty table (before a zero window) or a too-short table fails at the first column, with that error |
| Smoother.ProcessData | transient_absorption_analyser/src/core/data_processor.py:292-308 | succeeds exactly when there is no wavelength column or 1 <= window <= rows; with a wavelength column, a negative window fails first, then a table with no rows, then a zero window, then a too-short table; the raw table is the input, and the smoothed one keeps headers, labels and time column and replaces each wavelength column by its moving average |
| Pipeline.SummaryInjective | transient_absorption_analyser/src/core/data_processor.py:34-41 | the summary determines the wavelength count, the time-point count and the window |
| Pipeline.Wavelengths | transient_absorption_analyser/src/core/data_processor.py:322-324 | succeeds exactly when every header after the time column is a number, and then lists those numbers in order |
| Pipeline.Parse | transient_absorption_analyser/src/core/data_processor.py:324 | `float` of each header, in order, failing exactly when one is not a number |
| Pipeline.Execute | transient_absorption_analyser/src/core/data_processor.py:71-104 | a run reaches between one and five milestones, and all five exactly when it succeeds |
| Pipeline.ProcessFiles | transient_absorption_analyser/src/core/data_processor.py:54-108 | the events are the milestones reached, in order, then `Completed` with the returned result, or `Failed` when `None` is returned |
| Pipeline.ProgressIncreases | transient_absorption_analyser/src/core/data_processor.py:73-102 | progress only increases, and 100 comes right before completion |
| Pipeline.ProcessFilesSuccessTables | transient_absorption_analyser/src/core/data_processor.py:74-100 | a result holds the loaded signal, the loaded reference exactly when a reference path is given, and the aligner's three tables |
| Pipeline.ProcessFilesSuccessSmoothing | transient_absorption_analyser/src/core/data_processor.py:78-99 | in a result, 1 <= window <= common rows <= signal rows, and the smoothed table is the common table with every wavelength column replaced by its moving average |
| Pipeline.ProcessFilesSuccessAxes | transient_absorption_analyser/src/core/data_processor.py:97-98 | the wavelengths are the numbers in the signal's headers after the time column; the time points are the common table's time column |
| Pipeline.ProcessFilesWithoutReference | transient_absorption_analyser/src/core/data_processor.py:75-98 | without a reference path (or with an empty one), a run succeeds exactly when the signal loads and 1 <= window <= its rows, and the common table is the signal |
| Pipeline.ProcessFilesUnsupported | transient_absorption_analyser/src/core/data_processor.py:73-74 | a signal path with an unsupported extension gives progress 10 and then the failure |
| Pipeline.ExecuteFailureStage | transient_absorption_analyser/src/core/data_processor.py:73-108 | load and validation errors stop a run after 10%, alignment errors after 30%, smoothing errors after 50% |
| Pipeline.ProcessFilesFailureStage | transient_absorption_analyser/src/core/data_processor.py:73-108 | the same, counted in emitted events |

## Left out

- Reading files: the `read_csv` / `read_excel` cascade over delimiters, decimal marks and encodings is not modelled. Its outcome is the parameter `read` of `Loader.Load`, `None` when every attempt failed. Missing files, permission errors and pandas' empty-data error are all that one `ReadFailed`.
- Floating point: cells, kernel weights and sums are exact reals. Rounding in `float`, in the convolution and in the subtraction is not modelled.
- Numbers.RoundHundredths: rounds the exact value half-to-even, whereas Python's `round` works on the nearest binary double, so a few decimal ties round the other way there.
- Loader.Load: cell and header texts follow the decimal grammar `float` shares with `pd.to_numeric` (sign, digits, point, exponent). `inf`, `nan`, surrounding whitespace, underscores and thousands separators are not accepted. An empty cell, which pandas reads as NaN and accepts, counts here as non-numeric.
- Loader.Load: a header that is not text (a number read from a spreadsheet) is not modelled; every header is text and is normalised.
- Loader.TimeHeaderIgnored: not promised when the old or the new time label repeats a wavelength header after normalisation, since the source then refuses the table (`Loader.TimeHeaderClash`).
- Loader.LoadRoundTrip: covers written tables whose wavelengths are distinct and whose time header differs from every written wavelength, since the source refuses repeated headers.
- Raw headers that repeat before normalisation: pandas' readers rename such a header (`500.0.1`); that renaming belongs to the reading step, which is not modelled, and the model treats any repeat as a refusal.
- Exact messages: errors are their kinds; the message texts, and the `str(e)` the error signal carries, are not modelled.
- Qt: the signal/slot machinery is replaced by the returned event list.
- Lower-casing of the path covers ASCII letters only.
- `_validate_data` takes the reference table but never looks at it; the model's `Validate` does not take it.
- Column dtypes (integer vs float columns) are not modelled; every cell is a number or NaN.

=== FILE: aligner.dfy ===
/** `DataProcessor._find_common_data`: restrict a signal table and a reference
    table to their common wavelengths and time points and subtract.

    Wavelengths are compared as `round(float(header), 2)`, held here as whole
    hundredths. Time points are compared exactly. Both tables keep the rows
    whose time is common to both, in their own order. The difference table
    starts as the filtered signal; for each common wavelength the first signal
    column with that key is replaced by signal minus the first reference
    column with that key. pandas pairs the two columns by ROW LABEL: a signal
    row whose label the filtered reference does not carry gets NaN. */
module Aligner {
  import opened Outcomes
  import opened Values
  import opened Numbers
  import opened Frames

  /** `list.index`: the first position holding x, or |xs| when there is none. */
  function FirstIndex<T(==)>(xs: seq<T>, x: T): (k: nat)
    ensures k <= |xs|
    ensures k < |xs| ==> xs[k] == x
    ensures k == |xs| <==> x !in xs
    ensures forall i :: 0 <= i < k ==> xs[i] != x
    decreases |xs|
  {
    if |xs| == 0 then 0
    else if xs[0] == x then 0
    else 1 + FirstIndex(xs[1..], x)
  }

  function Elements<T>(xs: seq<T>): set<T> {
    set x | x in xs
  }

  /** `[round(float(h), 2) for h in headers]`, failing at the first header
      that is not a number. */
  function Keys(headers: seq<string>): (r: Result<seq<int>>)
    ensures r.Ok? <==> forall j :: 0 <= j < |headers| ==> IsNumber(headers[j])
    ensures r.Ok? ==> (|r.value| == |headers| &&
      forall j :: 0 <= j < |headers| ==> r.value[j] == RoundHundredths(ParseNumber(headers[j]).value))
    ensures r.Err? ==> exists j :: (0 <= j < |headers| && r.error == NotAWavelength(headers[j]) &&
      !IsNumber(headers[j]) && forall i :: 0 <= i < j ==> IsNumber(headers[i]))
    decreases |headers|
  {
    if |headers| == 0 then Ok([])
    else
      var v := ParseNumber(headers[0]);
      if v.None? then Err(NotAWavelength(headers[0]))
      else
        var rest := Keys(headers[1..]);
        if rest.Err? then rest else Ok([RoundHundredths(v.value)] + rest.value)
  }

  /** The rounded wavelength of every column after the time column. */
  function WaveKeys(f: Frame): Result<seq<int>>
    requires |f.headers| >= 1
  {
    Keys(f.headers[1..])
  }

  /** The set of values in the time column. */
  function TimeSet(f: Frame): set<Value>
    requires |f.columns| >= 1
  {
    Elements(f.columns[0])
  }

  /** `column.isin(values)`. */
  function InSet(column: seq<Value>, values: set<Value>): (keep: seq<bool>)
    ensures |keep| == |column|
    ensures forall i :: 0 <= i < |column| ==> (keep[i] <==> column[i] in values)
  {
    seq(|column|, i requires 0 <= i < |column| => column[i] in values)
  }

  /** The positions the mask keeps are exactly those whose value lies in
      `values`, in increasing order. */
  lemma InSetKept(column: seq<Value>, values: set<Value>)
    ensures var p := Kept(InSet(column, values));
      StrictlyIncreasing(p) &&
      (forall k :: 0 <= k < |p| ==> p[k] < |column| && column[p[k]] in values) &&
      (forall i :: 0 <= i < |column| ==> (i in p <==> column[i] in values))
  {
    KeptFromFacts(InSet(column, values), 0);
  }

  /** `signal_column - reference_column` assigned back into a table with the
      signal's labels: each signal row is paired with the reference row that
      carries the same label, and gets NaN when there is none. */
  function LabelDiff(index: seq<nat>, column: seq<Value>, refIndex: seq<nat>, refColumn: seq<Value>): (r: seq<Value>)
    requires |index| == |column| && |refIndex| == |refColumn|
    ensures |r| == |column|
  {
    seq(|column|, p requires 0 <= p < |column| =>
      var q := FirstIndex(refIndex, index[p]);
      if q < |refIndex| then Sub(column[p], refColumn[q]) else NaN)
  }

  /** What the requirements of `Subtracted` ask of its arguments: keys for
      every wavelength column, and every common key present in both lists. */
  predicate Matchable(sf: Frame, rf: Frame, sk: seq<int>, rk: seq<int>, common: set<int>) {
    sf.Rectangular() && rf.Rectangular() &&
    |sk| + 1 == |sf.columns| && |rk| + 1 == |rf.columns| &&
    forall w :: w in common ==> w in sk && w in rk
  }

  /** Column j of the signal is subtracted when its key is common and no
      earlier column has the same key (`signal_waves.index(wave)`). */
  predicate IsSubtracted(sk: seq<int>, common: set<int>, j: int) {
    1 <= j <= |sk| && sk[j - 1] in common && FirstIndex(sk, sk[j - 1]) == j - 1
  }

  /** The reference column paired with signal column j. */
  function PartnerColumn(sk: seq<int>, rk: seq<int>, j: int): nat
    requires 1 <= j <= |sk|
  {
    FirstIndex(rk, sk[j - 1]) + 1
  }

  function Difference(sf: Frame, rf: Frame, sk: seq<int>, rk: seq<int>, j: nat): seq<Value>
    requires sf.Rectangular() && rf.Rectangular()
    requires |sk| + 1 == |sf.columns| && |rk| + 1 == |rf.columns|
    requires 1 <= j <= |sk| && sk[j - 1] in rk
  {
    LabelDiff(sf.index, sf.columns[j], rf.index, rf.columns[PartnerColumn(sk, rk, j)])
  }

  /** The difference table, column by column. */
  function Subtracted(sf: Frame, rf: Frame, sk: seq<int>, rk: seq<int>, common: set<int>): (r: Frame)
    requires Matchable(sf, rf, sk, rk, common)
    ensures r.Rectangular() && r.headers == sf.headers && r.index == sf.index
  {
    forall j | IsSubtracted(sk, common, j)
      ensures sk[j - 1] in rk
    {
      var w := sk[j - 1];
      assert w in common;
      assert forall v :: v in common ==> v in rk;
    }
    Frame(sf.headers, sf.index, seq(|sf.columns|, j requires 0 <= j < |sf.columns| =>
      if IsSubtracted(sk, common, j) then Difference(sf, rf, sk, rk, j) else sf.columns[j]))
  }

  /** The loop `for wave in order: result[sig_col] = ...`, one replacement per
      wavelength. */
  function ReplaceEach(sf: Frame, rf: Frame, sk: seq<int>, rk: seq<int>, order: seq<int>): (r: Frame)
    requires Matchable(sf, rf, sk, rk, Elements(order))
    ensures r.headers == sf.headers && r.index == sf.index && |r.columns| == |sf.columns|
    decreases |order|
  {
    if |order| == 0 then sf
    else
      var init := order[..|order| - 1];
      var w := order[|order| - 1];
      assert Elements(init) <= Elements(order);
      var before := ReplaceEach(sf, rf, sk, rk, init);
      var j := FirstIndex(sk, w) + 1;
      before.(columns := before.columns[j := Difference(sf, rf, sk, rk, j)])
  }

  /** Every replacement reads the filtered signal, never the partial result,
      so the order in which the loop visits the common wavelengths (the
      iteration order of a Python set) does not matter, and neither do
      repeats: any enumeration of the common keys gives the same table. */
  lemma {:induction false} ReplaceEachIsSubtracted(sf: Frame, rf: Frame, sk: seq<int>, rk: seq<int>, order: seq<int>)
    requires Matchable(sf, rf, sk, rk, Elements(order))
    ensures ReplaceEach(sf, rf, sk, rk, order) == Subtracted(sf, rf, sk, rk, Elements(order))
    decreases |order|
  {
    var r := ReplaceEach(sf, rf, sk, rk, order);
    var s := Subtracted(sf, rf, sk, rk, Elements(order));
    if |order| == 0 {
      forall j | 0 <= j < |sf.columns|
        ensures s.columns[j] == sf.columns[j]
      {
        assert !IsSubtracted(sk, Elements(order), j);
      }
    } else {
      var init := order[..|order| - 1];
      var w := order[|order| - 1];
      assert order == init + [w];
      assert Elements(order) == Elements(init) + {w};
      ReplaceEachIsSubtracted(sf, rf, sk, rk, init);
      var before := Subtracted(sf, rf, sk, rk, Elements(init));
      var k := FirstIndex(sk, w) + 1;
      forall j | 0 <= j < |sf.columns|
        ensures r.columns[j] == s.columns[j]
      {
        if j == k {
          assert IsSubtracted(sk, Elements(order), j);
        } else {
          assert r.columns[j] == before.columns[j];
          if IsSubtracted(sk, Elements(order), j) {
            assert sk[j - 1] != w;
            assert IsSubtracted(sk, Elements(init), j);
          } else {
            assert !IsSubtracted(sk, Elements(init), j);
          }
        }
      }
    }
  }

  /** The three tables `_find_common_data` returns. */
  datatype Aligned = Aligned(difference: Frame, signalCommon: Option<Frame>, referenceCommon: Option<Frame>)

  /** `_find_common_data`. Without a reference the signal is the difference
      and there are no filtered tables. */
  function Align(signal: Frame, reference: Option<Frame>): (r: Result<Aligned>)
    requires reference.Some? ==> signal.WellFormed() && reference.value.WellFormed()
    ensures reference.None? ==> r == Ok(Aligned(signal, None, None))
    ensures r.Err? ==> r.error.NotAWavelength? || r.error.NoCommonWavelengths? || r.error.NoCommonTimePoints?
    ensures reference.Some? && WaveKeys(signal).Err? ==> r == Err(WaveKeys(signal).error)
    ensures reference.Some? && WaveKeys(signal).Ok? && WaveKeys(reference.value).Err? ==>
      r == Err(WaveKeys(reference.value).error)
    ensures reference.Some? && WaveKeys(signal).Ok? && WaveKeys(reference.value).Ok? ==>
      var common := Elements(WaveKeys(signal).value) * Elements(WaveKeys(reference.value).value);
      var times := TimeSet(signal) * TimeSet(reference.value);
      (common == {} ==> r == Err(NoCommonWavelengths)) &&
      (common != {} && times == {} ==> r == Err(NoCommonTimePoints)) &&
      (r.Ok? <==> common != {} && times != {})
    ensures reference.Some? && r.Ok? ==>
      var a := r.value;
      a.signalCommon.Some? && a.referenceCommon.Some? &&
      a.difference.Rectangular() && a.difference.headers == signal.headers &&
      a.difference.index == a.signalCommon.value.index &&
      a.signalCommon.value.headers == signal.headers &&
      a.referenceCommon.value.headers == reference.value.headers
  {
    if reference.None? then Ok(Aligned(signal, None, None))
    else
      var ref := reference.value;
      var sk :- WaveKeys(signal);
      var rk :- WaveKeys(ref);
      var common := Elements(sk) * Elements(rk);
      if common == {} then Err(NoCommonWavelengths)
      else
        var times := TimeSet(signal) * TimeSet(ref);
        if times == {} then Err(NoCommonTimePoints)
        else
          var sf := FilterRows(signal, InSet(signal.columns[0], times));
          var rf := FilterRows(ref, InSet(ref.columns[0], times));
          Ok(Aligned(Subtracted(sf, rf, sk, rk, common), Some(sf), Some(rf)))
  }

  /** A successful alignment, spelled out: the filtered tables and their
      difference. */
  lemma AlignUnfold(signal: Frame, reference: Frame)
    requires signal.WellFormed() && reference.WellFormed()
    requires Align(signal, Some(reference)).Ok?
    ensures WaveKeys(signal).Ok? && WaveKeys(reference).Ok?
    ensures var sk := WaveKeys(signal).value;
      var rk := WaveKeys(reference).value;
      var times := TimeSet(signal) * TimeSet(reference);
      var sf := FilterRows(signal, InSet(signal.columns[0], times));
      var rf := FilterRows(reference, InSet(reference.columns[0], times));
      Elements(sk) * Elements(rk) != {} && times != {} &&
      Align(signal, Some(reference)) == Ok(Aligned(Subtracted(sf, rf, sk, rk, Elements(sk) * Elements(rk)), Some(sf), Some(rf)))
  {
  }

  /** The common wavelength keys of two tables whose headers parse. */
  function CommonKeys(signal: Frame, reference: Frame): set<int>
    requires |signal.headers| >= 1 && |reference.headers| >= 1
    requires WaveKeys(signal).Ok? && WaveKeys(reference).Ok?
  {
    Elements(WaveKeys(signal).value) * Elements(WaveKeys(reference).value)
  }

  /** Filtering on the common times keeps a row exactly when its time also
      occurs in the other table. */
  lemma CommonTimesMask(f: Frame, other: Frame)
    requires |f.columns| >= 1 && |other.columns| >= 1
    ensures InSet(f.columns[0], TimeSet(f) * TimeSet(other)) == InSet(f.columns[0], TimeSet(other))
  {
    var a := InSet(f.columns[0], TimeSet(f) * TimeSet(other));
    var b := InSet(f.columns[0], TimeSet(other));
    forall i | 0 <= i < |a|
      ensures a[i] == b[i]
    {
      assert f.columns[0][i] in TimeSet(f);
    }
  }

  /** Both filtered tables are stable filters of their originals: a row stays,
      in its original order and with its label, exactly when its time occurs
      in the other table. */
  lemma AlignKeepsCommonTimes(signal: Frame, reference: Frame)
    requires signal.WellFormed() && reference.WellFormed()
    requires Align(signal, Some(reference)).Ok?
    ensures var a := Align(signal, Some(reference)).value;
      a.signalCommon == Some(FilterRows(signal, InSet(signal.columns[0], TimeSet(reference)))) &&
      a.referenceCommon == Some(FilterRows(reference, InSet(reference.columns[0], TimeSet(signal))))
    ensures var sc := Align(signal, Some(reference)).value.signalCommon.value;
      var p := Kept(InSet(signal.columns[0], TimeSet(reference)));
      sc.Rows() == |p| && StrictlyIncreasing(p) &&
      (forall i :: 0 <= i < signal.Rows() ==> (i in p <==> signal.columns[0][i] in TimeSet(reference))) &&
      (forall k :: 0 <= k < |p| ==> p[k] < signal.Rows() && sc.index[k] == signal.index[p[k]]) &&
      (forall j, k :: 0 <= j < |signal.columns| && 0 <= k < |p| ==> sc.columns[j][k] == signal.columns[j][p[k]])
  {
    CommonTimesMask(signal, reference);
    CommonTimesMask(reference, signal);
    assert TimeSet(reference) * TimeSet(signal) == TimeSet(signal) * TimeSet(reference);
    FilterRowsRows(signal, InSet(signal.columns[0], TimeSet(reference)));
  }

  /** Columns that are not subtracted (the time column, wavelengths the
      reference lacks, and repeated keys) pass through from the filtered
      signal; a subtracted column is the label-paired difference with the
      first reference column of the same key. */
  lemma AlignDifference(signal: Frame, reference: Frame, j: nat)
    requires signal.WellFormed() && reference.WellFormed()
    requires Align(signal, Some(reference)).Ok?
    requires j < |signal.columns|
    ensures var a := Align(signal, Some(reference)).value;
      var sc := a.signalCommon.value;
      var rc := a.referenceCommon.value;
      var sk := WaveKeys(signal).value;
      var rk := WaveKeys(reference).value;
      (!IsSubtracted(sk, CommonKeys(signal, reference), j) ==> a.difference.columns[j] == sc.columns[j]) &&
      (IsSubtracted(sk, CommonKeys(signal, reference), j) ==>
        var q := PartnerColumn(sk, rk, j);
        1 <= q < |reference.columns| && rk[q - 1] == sk[j - 1] &&
        (forall i :: 0 <= i < q - 1 ==> rk[i] != sk[j - 1]) &&
        a.difference.columns[j] == LabelDiff(sc.index, sc.columns[j], rc.index, rc.columns[q]))
  {
    AlignUnfold(signal, reference);
    var sk := WaveKeys(signal).value;
    var rk := WaveKeys(reference).value;
    var common := Elements(sk) * Elements(rk);
    var times := TimeSet(signal) * TimeSet(reference);
    var sf := FilterRows(signal, InSet(signal.columns[0], times));
    var rf := FilterRows(reference, InSet(reference.columns[0], times));
    assert Matchable(sf, rf, sk, rk, common);
    SubtractedColumn(sf, rf, sk, rk, common, j);
  }

  /** One column of the difference table. */
  lemma SubtractedColumn(sf: Frame, rf: Frame, sk: seq<int>, rk: seq<int>, common: set<int>, j: nat)
    requires Matchable(sf, rf, sk, rk, common) && j < |sf.columns|
    ensures var r := Subtracted(sf, rf, sk, rk, common);
      (!IsSubtracted(sk, common, j) ==> r.columns[j] == sf.columns[j]) &&
      (IsSubtracted(sk, common, j) ==>
        var q := PartnerColumn(sk, rk, j);
        1 <= q < |rf.columns| && rk[q - 1] == sk[j - 1] &&
        (forall i :: 0 <= i < q - 1 ==> rk[i] != sk[j - 1]) &&
        r.columns[j] == LabelDiff(sf.index, sf.columns[j], rf.index, rf.columns[q]))
  {
    if IsSubtracted(sk, common, j) {
      var w := sk[j - 1];
      assert w in common;
      assert w in rk;
    }
  }

  /** The label of a row of the difference table, found in the filtered
      reference, picks the reference row that is paired with it; no such
      row means NaN. */
  lemma LabelDiffCells(index: seq<nat>, column: seq<Value>, refIndex: seq<nat>, refColumn: seq<Value>, p: nat)
    requires |index| == |column| && |refIndex| == |refColumn| && p < |column|
    ensures var r := LabelDiff(index, column, refIndex, refColumn);
      (index[p] !in refIndex ==> r[p] == NaN) &&
      (forall q :: (0 <= q < |refIndex| && refIndex[q] == index[p] &&
        (forall q' :: 0 <= q' < q ==> refIndex[q'] != index[p])) ==> r[p] == Sub(column[p], refColumn[q]))
  {
  }

  /** In tables straight from the loader the row labels are the original row
      numbers, and they survive filtering. So the difference in the row that
      was signal row l subtracts the reference row that was ALSO row l, when
      that row survived its own filter, whatever its time; otherwise it is
      NaN. Rows are paired by position in the files, not by time. */
  lemma AlignPairsOriginalRows(signal: Frame, reference: Frame, j: nat, k: nat)
    requires signal.WellFormed() && reference.WellFormed()
    requires signal.index == Range(signal.Rows()) && reference.index == Range(reference.Rows())
    requires Align(signal, Some(reference)).Ok?
    requires IsSubtracted(WaveKeys(signal).value, CommonKeys(signal, reference), j)
    requires k < Align(signal, Some(reference)).value.difference.Rows()
    ensures var a := Align(signal, Some(reference)).value;
      var l := a.signalCommon.value.index[k];
      var q := PartnerColumn(WaveKeys(signal).value, WaveKeys(reference).value, j);
      l < signal.Rows() && signal.columns[0][l] in TimeSet(reference) &&
      a.difference.columns[j][k] ==
        if l < reference.Rows() && reference.columns[0][l] in TimeSet(signal)
        then Sub(signal.columns[j][l], reference.columns[q][l])
        else NaN
  {
    var a := Align(signal, Some(reference)).value;
    var sc := a.signalCommon.value;
    var rc := a.referenceCommon.value;
    var q := PartnerColumn(WaveKeys(signal).value, WaveKeys(reference).value, j);
    AlignKeepsCommonTimes(signal, reference);
    AlignDifference(signal, reference, j);
    var l := sc.index[k];
    assert l < signal.Rows() && signal.columns[0][l] in TimeSet(reference) &&
      sc.columns[j][k] == signal.columns[j][l] by {
      var ps := Kept(InSet(signal.columns[0], TimeSet(reference)));
      assert l == ps[k];
      assert ps[k] in ps;
    }
    var maskR := InSet(reference.columns[0], TimeSet(signal));
    LookupLabel(reference, maskR, l);
  }

  /** In a table whose labels are its row numbers, a filtered copy finds label
      l exactly when row l was kept, and then holds that row's cells. */
  lemma LookupLabel(f: Frame, keep: seq<bool>, l: nat)
    requires f.Rectangular() && |keep| == f.Rows() && f.index == Range(f.Rows())
    ensures var r := FilterRows(f, keep);
      var m := FirstIndex(r.index, l);
      (m < |r.index| <==> l < f.Rows() && keep[l]) &&
      (m < |r.index| ==> forall c :: 0 <= c < |f.columns| ==> r.columns[c][m] == f.columns[c][l])
  {
    var r := FilterRows(f, keep);
    var p := Kept(keep);
    FilterRowsRows(f, keep);
    assert r.index == p by {
      forall k | 0 <= k < |p|
        ensures r.index[k] == p[k]
      {
        assert f.index[p[k]] == p[k];
      }
    }
    if l < f.Rows() && keep[l] {
      assert l in p;
    }
  }

  /** When both tables list the same times in the same order, the pairing by
      row number is the pairing by time: every difference is taken between
      readings at the same time, so a NaN appears only where one of the two
      readings is NaN, and none at all between numeric tables. */
  lemma AlignSameTimes(signal: Frame, reference: Frame, j: nat, k: nat)
    requires signal.WellFormed() && reference.WellFormed()
    requires signal.index == Range(signal.Rows()) && reference.index == Range(reference.Rows())
    requires signal.columns[0] == reference.columns[0]
    requires Align(signal, Some(reference)).Ok?
    requires IsSubtracted(WaveKeys(signal).value, CommonKeys(signal, reference), j)
    requires k < Align(signal, Some(reference)).value.difference.Rows()
    ensures var a := Align(signal, Some(reference)).value;
      var l := a.signalCommon.value.index[k];
      var q := PartnerColumn(WaveKeys(signal).value, WaveKeys(reference).value, j);
      l < reference.Rows() && reference.columns[0][l] == signal.columns[0][l] &&
      a.difference.columns[j][k] == Sub(signal.columns[j][l], reference.columns[q][l]) &&
      (a.difference.columns[j][k].Num? <==> signal.columns[j][l].Num? && reference.columns[q][l].Num?) &&
      (signal.Numeric() && reference.Numeric() ==> a.difference.columns[j][k].Num?)
  {
    AlignPairsOriginalRows(signal, reference, j, k);
    var a := Align(signal, Some(reference)).value;
    var l := a.signalCommon.value.index[k];
    var q := PartnerColumn(WaveKeys(signal).value, WaveKeys(reference).value, j);
    if signal.Numeric() && reference.Numeric() {
      assert AllNum(signal.columns[j]) && AllNum(reference.columns[q]);
    }
  }

  function ShiftedSignal(headers: seq<string>): Frame {
    Frame(headers, [0, 1, 2], [[Num(0.0), Num(1.0), Num(2.0)], [Num(10.0), Num(20.0), Num(30.0)]])
  }

  function ShiftedReference(headers: seq<string>): Frame {
    Frame(headers, [0, 1], [[Num(1.0), Num(2.0)], [Num(1.0), Num(2.0)]])
  }

  lemma ShiftedMasks(headers: seq<string>)
    ensures var signal := ShiftedSignal(headers);
      var reference := ShiftedReference(headers);
      var times := TimeSet(signal) * TimeSet(reference);
      times == {Num(1.0), Num(2.0)} &&
      InSet(signal.columns[0], times) == [false, true, true] &&
      InSet(reference.columns[0], times) == [true, true]
  {
    var signal := ShiftedSignal(headers);
    var reference := ShiftedReference(headers);
    assert TimeSet(signal) == {Num(0.0), Num(1.0), Num(2.0)};
    assert TimeSet(reference) == {Num(1.0), Num(2.0)};
  }

  lemma ShiftedFilters(headers: seq<string>)
    requires |headers| == 2
    ensures FilterRows(ShiftedSignal(headers), [false, true, true]) ==
      Frame(headers, [1, 2], [[Num(1.0), Num(2.0)], [Num(20.0), Num(30.0)]])
    ensures FilterRows(ShiftedReference(headers), [true, true]) == ShiftedReference(headers)
  {
    var signal := ShiftedSignal(headers);
    var ms := [false, true, true];
    var sf := FilterRows(signal, ms);
    assert Select(signal.index, ms) == [1, 2] by {
      assert Select(signal.index[2..], ms[2..]) == [2];
      assert Select(signal.index[1..], ms[1..]) == [1, 2];
    }
    assert Select(signal.columns[0], ms) == [Num(1.0), Num(2.0)] by {
      assert Select(signal.columns[0][2..], ms[2..]) == [Num(2.0)];
      assert Select(signal.columns[0][1..], ms[1..]) == [Num(1.0), Num(2.0)];
    }
    assert Select(signal.columns[1], ms) == [Num(20.0), Num(30.0)] by {
      assert Select(signal.columns[1][2..], ms[2..]) == [Num(30.0)];
      assert Select(signal.columns[1][1..], ms[1..]) == [Num(20.0), Num(30.0)];
    }
    assert sf.columns == [Select(signal.columns[0], ms), Select(signal.columns[1], ms)];
    var reference := ShiftedReference(headers);
    var mr := [true, true];
    SelectAll(reference.index, mr);
    SelectAll(reference.columns[0], mr);
    SelectAll(reference.columns[1], mr);
    assert FilterRows(reference, mr).columns == [Select(reference.columns[0], mr), Select(reference.columns[1], mr)];
  }

  lemma ShiftedDifference(headers: seq<string>, sk: seq<int>)
    requires |headers| == 2 && |sk| == 1
    ensures Subtracted(Frame(headers, [1, 2], [[Num(1.0), Num(2.0)], [Num(20.0), Num(30.0)]]),
      ShiftedReference(headers), sk, sk, {sk[0]}) ==
      Frame(headers, [1, 2], [[Num(1.0), Num(2.0)], [Num(18.0), NaN]])
  {
    var sf := Frame(headers, [1, 2], [[Num(1.0), Num(2.0)], [Num(20.0), Num(30.0)]]);
    var rf := ShiftedReference(headers);
    assert IsSubtracted(sk, {sk[0]}, 1);
    assert !IsSubtracted(sk, {sk[0]}, 0);
    assert FirstIndex(rf.index, 1) == 1;
    assert FirstIndex(rf.index, 2) == 2;
    assert LabelDiff(sf.index, sf.columns[1], rf.index, rf.columns[1]) == [Num(18.0), NaN];
    var d := Subtracted(sf, rf, sk, sk, {sk[0]});
    assert d.columns == [[Num(1.0), Num(2.0)], [Num(18.0), NaN]];
  }

  /** Two tables with one wavelength column each, the same header, signal
      times 0, 1, 2 and reference times 1, 2: the signal reading at time 1 is
      paired with the reference reading at time 2, and the signal reading at
      time 2 gets NaN although the reference has a reading at that time. */
  lemma AlignShiftedTimes(headers: seq<string>)
    requires |headers| == 2 && IsNumber(headers[1])
    ensures Align(ShiftedSignal(headers), Some(ShiftedReference(headers))) ==
      Ok(Aligned(
        Frame(headers, [1, 2], [[Num(1.0), Num(2.0)], [Num(18.0), NaN]]),
        Some(Frame(headers, [1, 2], [[Num(1.0), Num(2.0)], [Num(20.0), Num(30.0)]])),
        Some(ShiftedReference(headers))))
  {
    var signal := ShiftedSignal(headers);
    var reference := ShiftedReference(headers);
    var sk := WaveKeys(signal).value;
    assert sk == WaveKeys(reference).value && |sk| == 1 by {
      assert headers[1..] == [headers[1]];
    }
    assert Elements(sk) * Elements(sk) == {sk[0]};
    ShiftedMasks(headers);
    ShiftedFilters(headers);
    ShiftedDifference(headers, sk);
  }

  /** Aligning a table with itself keeps every row and subtracts every
      wavelength column from itself: each first column of its key becomes
      zero. */
  lemma AlignSelf(f: Frame, j: nat, k: nat)
    requires f.WellFormed() && f.UniqueIndex() && f.Numeric() && f.Rows() >= 1
    requires WaveKeys(f).Ok? && |f.headers| >= 2
    requires IsSubtracted(WaveKeys(f).value, CommonKeys(f, f), j) && k < f.Rows()
    ensures Align(f, Some(f)).Ok?
    ensures Align(f, Some(f)).value.signalCommon == Some(f)
    ensures Align(f, Some(f)).value.referenceCommon == Some(f)
    ensures Align(f, Some(f)).value.difference.columns[j][k] == Num(0.0)
  {
    var sk := WaveKeys(f).value;
    assert sk[0] in Elements(sk) * Elements(sk);
    assert f.columns[0][0] in TimeSet(f) * TimeSet(f);
    var mask := InSet(f.columns[0], TimeSet(f) * TimeSet(f));
    forall i | 0 <= i < |mask|
      ensures mask[i]
    {
      assert f.columns[0][i] in TimeSet(f);
    }
    SelectAll(f.index, mask);
    forall c | 0 <= c < |f.columns|
      ensures Select(f.columns[c], mask) == f.columns[c]
    {
      SelectAll(f.columns[c], mask);
    }
    var sc := FilterRows(f, mask);
    assert sc == f;
    AlignDifference(f, f, j);
    assert PartnerColumn(sk, sk, j) == j;
    LabelDiffCells(f.index, f.columns[j], f.index, f.columns[j], k);
    forall q' | 0 <= q' < k
      ensures f.index[q'] != f.index[k]
    {
    }
    assert f.columns[j][k].Num?;
  }

  /** Columns paired by the aligner name wavelengths at most 0.01 apart. */
  lemma AlignedWavelengthsClose(signal: Frame, reference: Frame, j: nat)
    requires signal.WellFormed() && reference.WellFormed()
    requires Align(signal, Some(reference)).Ok?
    requires IsSubtracted(WaveKeys(signal).value, CommonKeys(signal, reference), j)
    ensures var q := PartnerColumn(WaveKeys(signal).value, WaveKeys(reference).value, j);
      1 <= q < |reference.headers| &&
      IsNumber(signal.headers[j]) && IsNumber(reference.headers[q]) &&
      -0.01 <= ParseNumber(signal.headers[j]).value - ParseNumber(reference.headers[q]).value <= 0.01
  {
    var sk := WaveKeys(signal).value;
    var rk := WaveKeys(reference).value;
    var q := PartnerColumn(sk, rk, j);
    AlignDifference(signal, reference, j);
    assert signal.headers[1..][j - 1] == signal.headers[j];
    assert reference.headers[1..][q - 1] == reference.headers[q];
    SameKeyClose(ParseNumber(signal.headers[j]).value, ParseNumber(reference.headers[q]).value);
  }

  /** Whatever order the loop visits the common wavelengths in, the result is
      the difference table `Align` returns. */
  lemma AlignAnyLoopOrder(signal: Frame, reference: Frame, order: seq<int>)
    requires signal.WellFormed() && reference.WellFormed()
    requires Align(signal, Some(reference)).Ok?
    requires Elements(order) == CommonKeys(signal, reference)
    ensures var a := Align(signal, Some(reference)).value;
      a.difference == ReplaceEach(a.signalCommon.value, a.referenceCommon.value,
        WaveKeys(signal).value, WaveKeys(reference).value, order)
  {
    var a := Align(signal, Some(reference)).value;
    ReplaceEachIsSubtracted(a.signalCommon.value, a.referenceCommon.value,
      WaveKeys(signal).value, WaveKeys(reference).value, order);
  }
}

=== FILE: frames.dfy ===
/** Tables as the pipeline sees them.

    A `RawTable` is what a reader hands the loader: header texts and cell texts.
    A `Frame` is a pandas `DataFrame` after loading: header labels, the row
    labels of its index, and one column of cell values per header, stored
    column by column. Column 0 is the time column; the others are wavelength
    columns. */
module Frames {
  import opened Values

  datatype RawTable = RawTable(headers: seq<string>, rowCount: nat, columns: seq<seq<string>>) {

    /** One column of `rowCount` cells per header. */
    predicate Rectangular() {
      |columns| == |headers| && forall j :: 0 <= j < |columns| ==> |columns[j]| == rowCount
    }

    /** `DataFrame.empty`: no rows or no columns. */
    predicate Empty() {
      rowCount == 0 || |headers| == 0
    }
  }

  datatype Frame = Frame(headers: seq<string>, index: seq<nat>, columns: seq<seq<Value>>) {

    predicate Rectangular() {
      |columns| == |headers| && forall j :: 0 <= j < |columns| ==> |columns[j]| == |index|
    }

    /** A rectangular frame with a time column. */
    predicate WellFormed() {
      Rectangular() && |headers| >= 1
    }

    function Rows(): nat {
      |index|
    }

    /** `DataFrame.empty`: no rows or no columns. */
    predicate Empty() {
      |index| == 0 || |headers| == 0
    }

    /** Every cell holds a number. */
    predicate Numeric() {
      forall j :: 0 <= j < |columns| ==> AllNum(columns[j])
    }

    /** No row label occurs twice. */
    predicate UniqueIndex() {
      forall p, q :: 0 <= p < q < |index| ==> index[p] != index[q]
    }

    /** No column name occurs twice. */
    predicate UniqueHeaders() {
      Distinct(headers)
    }
  }

  /** No name occurs twice in `names`. */
  predicate Distinct(names: seq<string>) {
    forall p, q :: 0 <= p < q < |names| ==> names[p] != names[q]
  }

  /** The labels 0, 1, ..., n-1 of a freshly read table (pandas' `RangeIndex`). */
  function Range(n: nat): (r: seq<nat>)
    ensures |r| == n
    ensures forall i :: 0 <= i < n ==> r[i] == i
  {
    seq(n, i => i)
  }

  /** The elements of `xs` whose flag in `keep` is set, in their original order
      (boolean-mask indexing). */
  function Select<T>(xs: seq<T>, keep: seq<bool>): (r: seq<T>)
    requires |keep| == |xs|
    ensures |r| <= |xs|
    decreases |xs|
  {
    if |xs| == 0 then []
    else (if keep[0] then [xs[0]] else []) + Select(xs[1..], keep[1..])
  }

  /** The positions, counted from `base`, whose flag is set, in increasing order. */
  function KeptFrom(keep: seq<bool>, base: nat): (p: seq<nat>)
    decreases |keep|
  {
    if |keep| == 0 then []
    else (if keep[0] then [base] else []) + KeptFrom(keep[1..], base + 1)
  }

  function Kept(keep: seq<bool>): seq<nat> {
    KeptFrom(keep, 0)
  }

  predicate StrictlyIncreasing(p: seq<nat>) {
    forall a, b :: 0 <= a < b < |p| ==> p[a] < p[b]
  }

  lemma {:induction false} KeptFromFacts(keep: seq<bool>, base: nat)
    ensures var p := KeptFrom(keep, base);
      StrictlyIncreasing(p) &&
      (forall k :: 0 <= k < |p| ==> base <= p[k] < base + |keep|) &&
      (forall i :: 0 <= i < |keep| ==> (base + i in p <==> keep[i]))
    decreases |keep|
  {
    if |keep| > 0 {
      KeptFromFacts(keep[1..], base + 1);
      var rest := KeptFrom(keep[1..], base + 1);
      var p := KeptFrom(keep, base);
      forall i | 0 <= i < |keep|
        ensures base + i in p <==> keep[i]
      {
        if i > 0 {
          assert keep[1..][i - 1] == keep[i];
        }
      }
    }
  }

  lemma {:induction false} SelectAtKept<T>(xs: seq<T>, keep: seq<bool>, base: nat)
    requires |keep| == |xs|
    ensures var p := KeptFrom(keep, base);
      |Select(xs, keep)| == |p| &&
      forall k :: 0 <= k < |p| ==> base <= p[k] < base + |xs| && Select(xs, keep)[k] == xs[p[k] - base]
    decreases |xs|
  {
    if |xs| > 0 {
      SelectAtKept(xs[1..], keep[1..], base + 1);
      KeptFromFacts(keep[1..], base + 1);
      var p := KeptFrom(keep, base);
      var r := Select(xs, keep);
      var rest := KeptFrom(keep[1..], base + 1);
      forall k | 0 <= k < |p|
        ensures base <= p[k] < base + |xs| && r[k] == xs[p[k] - base]
      {
        if keep[0] && k == 0 {
        } else {
          var k' := if keep[0] then k - 1 else k;
          assert p[k] == rest[k'];
          assert r[k] == Select(xs[1..], keep[1..])[k'];
        }
      }
    }
  }

  /** Boolean-mask selection is a stable filter: it keeps exactly the flagged
      positions, in increasing order, and nothing else. */
  lemma SelectIsStable<T>(xs: seq<T>, keep: seq<bool>)
    requires |keep| == |xs|
    ensures var p := Kept(keep);
      var r := Select(xs, keep);
      |r| == |p| &&
      StrictlyIncreasing(p) &&
      (forall k :: 0 <= k < |p| ==> p[k] < |xs| && r[k] == xs[p[k]]) &&
      (forall i :: 0 <= i < |xs| ==> (i in p <==> keep[i]))
  {
    KeptFromFacts(keep, 0);
    SelectAtKept(xs, keep, 0);
  }

  /** Selecting with an all-true mask keeps everything. */
  lemma {:induction false} SelectAll<T>(xs: seq<T>, keep: seq<bool>)
    requires |keep| == |xs|
    requires forall i :: 0 <= i < |keep| ==> keep[i]
    ensures Select(xs, keep) == xs
    decreases |xs|
  {
    if |xs| > 0 {
      SelectAll(xs[1..], keep[1..]);
      assert [xs[0]] + xs[1..] == xs;
    }
  }

  /** The rows of a frame whose flag is set, with their labels (`df[mask]`). */
  function FilterRows(f: Frame, keep: seq<bool>): (r: Frame)
    requires f.Rectangular() && |keep| == f.Rows()
    ensures r.Rectangular()
    ensures r.headers == f.headers
  {
    var columns := seq(|f.columns|, j requires 0 <= j < |f.columns| => Select(f.columns[j], keep));
    SelectIsStable(f.index, keep);
    forall j | 0 <= j < |f.columns|
      ensures |columns[j]| == |Select(f.index, keep)|
    {
      SelectIsStable(f.columns[j], keep);
    }
    Frame(f.headers, Select(f.index, keep), columns)
  }

  /** Row k of a filtered frame is row `Kept(keep)[k]` of the original, label
      and cells alike; every flagged row is there and no other. */
  lemma FilterRowsRows(f: Frame, keep: seq<bool>)
    requires f.Rectangular() && |keep| == f.Rows()
    ensures var r := FilterRows(f, keep);
      var p := Kept(keep);
      r.Rows() == |p| &&
      StrictlyIncreasing(p) &&
      (forall i :: 0 <= i < f.Rows() ==> (i in p <==> keep[i])) &&
      (forall k :: 0 <= k < |p| ==> p[k] < f.Rows() && r.index[k] == f.index[p[k]]) &&
      (forall j, k :: 0 <= j < |f.columns| && 0 <= k < |p| ==> r.columns[j][k] == f.columns[j][p[k]])
  {
    var r := FilterRows(f, keep);
    var p := Kept(keep);
    SelectIsStable(f.index, keep);
    forall j | 0 <= j < |f.columns|
      ensures forall k :: 0 <= k < |p| ==> r.columns[j][k] == f.columns[j][p[k]]
    {
      SelectIsStable(f.columns[j], keep);
    }
  }

  /** Filtering a frame with unique labels leaves the labels unique, and a
      numeric frame numeric. */
  lemma FilterRowsKeeps(f: Frame, keep: seq<bool>)
    requires f.Rectangular() && |keep| == f.Rows()
    ensures f.UniqueIndex() ==> FilterRows(f, keep).UniqueIndex()
    ensures f.Numeric() ==> FilterRows(f, keep).Numeric()
  {
    var r := FilterRows(f, keep);
    var p := Kept(keep);
    FilterRowsRows(f, keep);
    if f.UniqueIndex() {
      forall a, b | 0 <= a < b < |r.index|
        ensures r.index[a] != r.index[b]
      {
        assert p[a] < p[b];
      }
    }
    if f.Numeric() {
      forall j | 0 <= j < |r.columns|
        ensures AllNum(r.columns[j])
      {
        forall k | 0 <= k < |r.columns[j]|
          ensures r.columns[j][k].Num?
        {
          assert r.columns[j][k] == f.columns[j][p[k]];
        }
      }
    }
  }
}

=== FILE: loader.dfy ===
/** `DataProcessor._load_data`: the checks a freshly read table goes through
    before it becomes a numeric frame.

    Reading the file itself (the cascade of `read_csv`/`read_excel` attempts
    with different delimiters, decimal marks and encodings) is outside the
    model: its outcome is the parameter `read`, `None` when every attempt
    failed. */
module Loader {
  import opened Outcomes
  import opened Values
  import opened Text
  import opened Numbers
  import opened Frames

  const Extensions: seq<string> := [".csv", ".xls", ".xlsx", ".txt"]

  /** The lower-cased path ends in one of the supported extensions. */
  predicate SupportedPath(path: string) {
    exists e :: e in Extensions && EndsWith(Lower(path), e)
  }

  /** Header labels with every decimal comma turned into a point. */
  function NormalizeHeaders(headers: seq<string>): (r: seq<string>)
    ensures |r| == |headers|
    ensures forall j :: 0 <= j < |headers| ==> r[j] == NormalizeDecimal(headers[j])
  {
    seq(|headers|, j requires 0 <= j < |headers| => NormalizeDecimal(headers[j]))
  }

  /** Normalised headers hold no comma, keep every header that had none as it
      was, and are left alone by a second normalisation. */
  lemma NormalizedHeadersPlain(headers: seq<string>)
    ensures var r := NormalizeHeaders(headers);
      (forall j :: 0 <= j < |r| ==> ',' !in r[j]) &&
      (forall j :: 0 <= j < |r| && NoneOf(headers[j], {','}) ==> r[j] == headers[j]) &&
      NormalizeHeaders(r) == r
  {
    var r := NormalizeHeaders(headers);
    forall j | 0 <= j < |r|
      ensures ',' !in r[j] && NormalizeDecimal(r[j]) == r[j]
      ensures NoneOf(headers[j], {','}) ==> r[j] == headers[j]
    {
      NormalizeDecimalIdempotent(headers[j]);
      if NoneOf(headers[j], {','}) {
        NormalizeWithoutComma(headers[j]);
      }
    }
  }

  /** Position of the first header at or after `from` that is not a number,
      or |headers| when there is none. */
  function FirstNonNumber(headers: seq<string>, from: nat): (k: nat)
    requires from <= |headers|
    ensures from <= k <= |headers|
    ensures forall j :: from <= j < k ==> IsNumber(headers[j])
    ensures k < |headers| ==> !IsNumber(headers[k])
    decreases |headers| - from
  {
    if from == |headers| then from
    else if !IsNumber(headers[from]) then from
    else FirstNonNumber(headers, from + 1)
  }

  /** A cell text that `pd.to_numeric` accepts once its comma is a point. */
  predicate IsNumericCell(cell: string) {
    IsNumber(NormalizeDecimal(cell))
  }

  function CellValue(cell: string): Value
    requires IsNumericCell(cell)
  {
    Num(ParseNumber(NormalizeDecimal(cell)).value)
  }

  predicate AllCellsNumeric(t: RawTable)
    requires t.Rectangular()
  {
    forall j, i :: 0 <= j < |t.columns| && 0 <= i < t.rowCount ==> IsNumericCell(t.columns[j][i])
  }

  /** Every check of the loader passes. */
  predicate Accepted(path: string, read: Option<RawTable>)
    requires read.Some? ==> read.value.Rectangular()
  {
    SupportedPath(path) && read.Some? && !read.value.Empty() && |read.value.headers| >= 2 &&
    FirstNonNumber(NormalizeHeaders(read.value.headers), 1) == |read.value.headers| &&
    Distinct(NormalizeHeaders(read.value.headers)) && AllCellsNumeric(read.value)
  }

  /** Load a table: the extension check, then reading, then the structural
      checks in the order the source makes them, then conversion of every
      header after the first and of every cell.

      Two headers that coincide once their commas are points make the
      conversion step fail: selecting such a name yields a table rather than
      a column, and the string operations on it raise, which the source
      reports as invalid data values. */
  function Load(path: string, read: Option<RawTable>): (r: Result<Frame>)
    requires read.Some? ==> read.value.Rectangular()
    ensures r == Err(UnsupportedFormat) <==> !SupportedPath(path)
    ensures r.Err? ==> (r.error.UnsupportedFormat? || r.error.ReadFailed? || r.error.EmptyFile? ||
      r.error.TooFewColumns? || r.error.InvalidHeader? || r.error.NonNumericData?)
    ensures r == Err(ReadFailed) <==> SupportedPath(path) && read.None?
    ensures r.Ok? <==> Accepted(path, read)
    ensures r == Err(EmptyFile) <==> SupportedPath(path) && read.Some? && read.value.Empty()
    ensures r == Err(TooFewColumns) <==>
      SupportedPath(path) && read.Some? && !read.value.Empty() && |read.value.headers| < 2
    ensures (r.Err? && r.error.InvalidHeader?) <==>
      SupportedPath(path) && read.Some? && !read.value.Empty() && |read.value.headers| >= 2 &&
      FirstNonNumber(NormalizeHeaders(read.value.headers), 1) < |read.value.headers|
    ensures r.Err? && r.error.InvalidHeader? ==>
      var t := read.value;
      exists j :: 1 <= j < |t.headers| && r.error.header == NormalizeDecimal(t.headers[j]) &&
        !IsNumber(NormalizeDecimal(t.headers[j])) &&
        forall i :: 1 <= i < j ==> IsNumber(NormalizeDecimal(t.headers[i]))
    ensures r == Err(NonNumericData) <==>
      SupportedPath(path) && read.Some? && !read.value.Empty() && |read.value.headers| >= 2 &&
      FirstNonNumber(NormalizeHeaders(read.value.headers), 1) == |read.value.headers| &&
      (!Distinct(NormalizeHeaders(read.value.headers)) || !AllCellsNumeric(read.value))
    ensures r.Ok? ==>
      var t := read.value;
      var f := r.value;
      f.WellFormed() && |f.headers| >= 2 && f.headers == NormalizeHeaders(t.headers) &&
      f.index == Range(t.rowCount) && f.Numeric() && f.UniqueIndex() && f.UniqueHeaders() &&
      forall j, i :: 0 <= j < |t.columns| && 0 <= i < t.rowCount ==>
        ParseNumber(NormalizeDecimal(t.columns[j][i])) == Some(f.columns[j][i].v)
  {
    if !SupportedPath(path) then Err(UnsupportedFormat)
    else if read.None? then Err(ReadFailed)
    else
      var t := read.value;
      if t.Empty() then Err(EmptyFile)
      else if |t.headers| < 2 then Err(TooFewColumns)
      else
        var headers := NormalizeHeaders(t.headers);
        var bad := FirstNonNumber(headers, 1);
        if bad < |headers| then Err(InvalidHeader(headers[bad]))
        else if !Distinct(headers) || !AllCellsNumeric(t) then Err(NonNumericData)
        else
          Ok(Frame(headers, Range(t.rowCount), Convert(t)))
  }

  /** `pd.to_numeric` on every cell, column by column. */
  function Convert(t: RawTable): (columns: seq<seq<Value>>)
    requires t.Rectangular() && AllCellsNumeric(t)
    ensures |columns| == |t.columns|
    ensures forall j :: 0 <= j < |columns| ==> |columns[j]| == t.rowCount && AllNum(columns[j])
    ensures forall j, i :: 0 <= j < |t.columns| && 0 <= i < t.rowCount ==>
      columns[j][i].Num? && ParseNumber(NormalizeDecimal(t.columns[j][i])) == Some(columns[j][i].v)
  {
    seq(|t.columns|, j requires 0 <= j < |t.columns| =>
      seq(t.rowCount, i requires 0 <= i < t.rowCount => CellValue(t.columns[j][i])))
  }

  /** The extension test ignores case: a path ending in any upper- or
      mixed-case spelling of a supported extension (".CSV", ".Txt") is
      accepted. */
  lemma UpperCaseExtension(prefix: string, s: string, e: string)
    requires e in Extensions && Lower(s) == e
    ensures SupportedPath(prefix + s)
  {
    var path := prefix + s;
    forall i | 0 <= i < |s|
      ensures Lower(path)[|prefix| + i] == e[i]
    {
      assert path[|prefix| + i] == s[i];
      assert Lower(s)[i] == LowerChar(s[i]);
    }
    assert Lower(path)[|path| - |e|..] == e;
  }

  /** "Scan.Csv" is accepted. */
  lemma MixedCaseExample()
    ensures SupportedPath("Scan.Csv")
  {
    assert Lower(".Csv") == ".csv";
    assert "Scan" + ".Csv" == "Scan.Csv";
    UpperCaseExtension("Scan", ".Csv", ".csv");
  }

  /** Whether a path is accepted depends only on its lower-cased form. */
  lemma SupportedPathCaseInsensitive(path: string)
    ensures SupportedPath(path) <==> SupportedPath(Lower(path))
  {
    forall i | 0 <= i < |path|
      ensures Lower(Lower(path))[i] == Lower(path)[i]
    {
      assert Lower(path)[i] == LowerChar(path[i]);
    }
    assert Lower(Lower(path)) == Lower(path);
  }

  /** Only the suffix decides the format: a path whose lower-cased form ends in
      an extension is accepted however its other characters are written. */
  lemma SupportedPathSuffix(prefix: string, e: string)
    requires e in Extensions
    ensures SupportedPath(prefix + e)
  {
    var path := prefix + e;
    forall i | 0 <= i < |e|
      ensures Lower(path)[|prefix| + i] == e[i]
    {
      assert path[|prefix| + i] == e[i];
    }
    assert Lower(path)[|path| - |e|..] == e;
  }

  /** A path such as "scan.dat" is refused before anything is read. */
  lemma UnsupportedExtension(read: Option<RawTable>)
    requires read.Some? ==> read.value.Rectangular()
    ensures Load("scan.dat", read) == Err(UnsupportedFormat)
  {
    var l := Lower("scan.dat");
    assert l == "scan.dat";
    assert !EndsWith(l, ".csv") && !EndsWith(l, ".xls") && !EndsWith(l, ".xlsx") && !EndsWith(l, ".txt") by {
      assert l[4..] == ".dat";
      assert l[3..] == "n.dat";
    }
  }

  /** The first header (the time label) is never parsed as a number: replacing
      it changes nothing but that label, as long as neither the old nor the
      new label coincides with a wavelength header once commas are points
      (a label that does is refused, see TimeHeaderClash). */
  lemma TimeHeaderIgnored(path: string, t: RawTable, timeLabel: string)
    requires t.Rectangular() && |t.headers| >= 1
    requires NormalizeDecimal(t.headers[0]) !in NormalizeHeaders(t.headers)[1..]
    requires NormalizeDecimal(timeLabel) !in NormalizeHeaders(t.headers)[1..]
    ensures var u := t.(headers := [timeLabel] + t.headers[1..]);
      u.Rectangular() &&
      (Load(path, Some(t)).Ok? <==> Load(path, Some(u)).Ok?) &&
      (Load(path, Some(t)).Ok? ==>
        Load(path, Some(u)).value == Load(path, Some(t)).value.(headers := [NormalizeDecimal(timeLabel)] + Load(path, Some(t)).value.headers[1..]))
  {
    var u := t.(headers := [timeLabel] + t.headers[1..]);
    assert NormalizeHeaders(u.headers)[1..] == NormalizeHeaders(t.headers)[1..] by {
      SameTailNormalized(t.headers, u.headers);
    }
    TimeHeaderAccepted(path, t, u);
    if Load(path, Some(t)).Ok? {
      TimeHeaderFrame(path, t, u);
    }
  }

  /** Whether a table is accepted does not depend on its first header, as
      long as that header, in either table, repeats no other. */
  lemma TimeHeaderAccepted(path: string, t: RawTable, u: RawTable)
    requires t.Rectangular() && |t.headers| >= 1
    requires u == t.(headers := u.headers) && |u.headers| == |t.headers| && u.headers[1..] == t.headers[1..]
    requires NormalizeHeaders(t.headers)[0] !in NormalizeHeaders(t.headers)[1..]
    requires NormalizeHeaders(u.headers)[0] !in NormalizeHeaders(u.headers)[1..]
    ensures u.Rectangular()
    ensures Accepted(path, Some(t)) <==> Accepted(path, Some(u))
  {
    var h := NormalizeHeaders(t.headers);
    var g := NormalizeHeaders(u.headers);
    SameTailNormalized(t.headers, u.headers);
    DistinctTail(h);
    DistinctTail(g);
    if |t.headers| >= 2 {
      FirstNonNumberAgree(h, g, 1);
    }
  }

  /** Header rows that agree after their first entry still agree there once
      normalised. */
  lemma SameTailNormalized(a: seq<string>, b: seq<string>)
    requires |a| == |b| >= 1 && a[1..] == b[1..]
    ensures NormalizeHeaders(a)[1..] == NormalizeHeaders(b)[1..]
  {
    var h := NormalizeHeaders(a);
    var g := NormalizeHeaders(b);
    forall i | 0 <= i < |h| - 1
      ensures g[1..][i] == h[1..][i]
    {
      assert b[i + 1] == b[1..][i];
      assert a[i + 1] == a[1..][i];
    }
  }

  /** A first name that occurs nowhere else leaves the question of repeats to
      the rest. */
  lemma DistinctTail(h: seq<string>)
    requires |h| >= 1 && h[0] !in h[1..]
    ensures Distinct(h) <==> Distinct(h[1..])
  {
    if Distinct(h[1..]) {
      forall p, q | 0 <= p < q < |h|
        ensures h[p] != h[q]
      {
        assert h[q] == h[1..][q - 1];
        if p > 0 {
          assert h[p] == h[1..][p - 1];
        }
      }
    }
    if Distinct(h) {
      forall p, q | 0 <= p < q < |h| - 1
        ensures h[1..][p] != h[1..][q]
      {
        assert h[1..][p] == h[p + 1] && h[1..][q] == h[q + 1];
      }
    }
  }

  /** A time label that coincides with a wavelength header once commas are
      points is refused: when every earlier check passes, as invalid data. */
  lemma TimeHeaderClash(path: string, t: RawTable, j: nat)
    requires t.Rectangular() && 1 <= j < |t.headers|
    requires NormalizeDecimal(t.headers[0]) == NormalizeDecimal(t.headers[j])
    ensures Load(path, Some(t)).Err?
    ensures (SupportedPath(path) && !t.Empty() && FirstNonNumber(NormalizeHeaders(t.headers), 1) == |t.headers|) ==>
      Load(path, Some(t)) == Err(NonNumericData)
  {
    var h := NormalizeHeaders(t.headers);
    assert h[0] == h[j];
  }

  /** The table "Time", "500.0", "500,0" over one row is refused: the two
      wavelength headers are both "500.0" once commas are points. */
  lemma DuplicateWavelengthExample()
    ensures Load("a.txt", Some(RawTable(["Time", "500.0", "500,0"], 1, [["0"], ["1"], ["2"]]))) == Err(NonNumericData)
  {
    var t := RawTable(["Time", "500.0", "500,0"], 1, [["0"], ["1"], ["2"]]);
    ExamplePath();
    ExampleHeaders(t.headers);
    RepeatedHeaderRefused("a.txt", t, 1, 2);
  }

  lemma ExamplePath()
    ensures SupportedPath("a.txt")
  {
    SupportedPathSuffix("a", ".txt");
    assert "a.txt" == "a" + ".txt";
  }

  /** Both wavelength headers of the example pass the header check and then
      coincide. */
  lemma ExampleHeaders(headers: seq<string>)
    requires headers == ["Time", "500.0", "500,0"]
    ensures FirstNonNumber(NormalizeHeaders(headers), 1) == 3
    ensures NormalizeDecimal(headers[1]) == NormalizeDecimal(headers[2])
  {
    FiveHundredHeaders();
    var h := NormalizeHeaders(headers);
    assert h[1] == NormalizeDecimal("500.0") && h[2] == NormalizeDecimal("500,0");
    AllNumbers(h);
  }

  /** "500.0" and "500,0" are the same number and the same header once
      normalised. */
  lemma FiveHundredHeaders()
    ensures NormalizeDecimal("500.0") == NormalizeDecimal("500,0")
    ensures IsNumber(NormalizeDecimal("500.0"))
  {
    var w := Literal(false, "500", "0", false, "");
    assert w.WellFormed() && ShowLiteral(w, '.') == "500.0" && ShowLiteral(w, ',') == "500,0";
    WrittenHeader("500.0", w, '.');
    WrittenHeader("500,0", w, ',');
  }

  /** Once every header check passes, two headers that coincide after
      normalisation make the table invalid data. */
  lemma RepeatedHeaderRefused(path: string, t: RawTable, p: nat, q: nat)
    requires t.Rectangular() && p < q < |t.headers|
    requires NormalizeDecimal(t.headers[p]) == NormalizeDecimal(t.headers[q])
    requires SupportedPath(path) && !t.Empty() && FirstNonNumber(NormalizeHeaders(t.headers), 1) == |t.headers|
    ensures Load(path, Some(t)) == Err(NonNumericData)
  {
  }

  /** An accepted table loads the same whatever its first header says, apart
      from that header itself. */
  lemma TimeHeaderFrame(path: string, t: RawTable, u: RawTable)
    requires t.Rectangular() && |t.headers| >= 1
    requires u == t.(headers := u.headers) && |u.headers| == |t.headers| && u.headers[1..] == t.headers[1..]
    requires Accepted(path, Some(t)) && Accepted(path, Some(u))
    ensures Load(path, Some(u)).value ==
      Load(path, Some(t)).value.(headers := [NormalizeDecimal(u.headers[0])] + Load(path, Some(t)).value.headers[1..])
  {
    var h := NormalizeHeaders(t.headers);
    var g := NormalizeHeaders(u.headers);
    assert g == [NormalizeDecimal(u.headers[0])] + h[1..] by {
      forall i | 1 <= i < |g|
        ensures g[i] == h[i]
      {
        assert u.headers[i] == u.headers[1..][i - 1];
        assert t.headers[i] == t.headers[1..][i - 1];
      }
    }
  }

  lemma {:induction false} FirstNonNumberAgree(h: seq<string>, g: seq<string>, from: nat)
    requires |h| == |g| && 1 <= from <= |h|
    requires h[1..] == g[1..]
    ensures FirstNonNumber(h, from) == FirstNonNumber(g, from)
    decreases |h| - from
  {
    if from < |h| {
      assert h[from] == h[1..][from - 1] == g[1..][from - 1] == g[from];
      FirstNonNumberAgree(h, g, from + 1);
    }
  }

  /** Writing a table of decimal literals out as text, with either decimal
      separator, the way a spreadsheet in either locale writes it. */
  function WriteTable(timeHeader: string, waves: seq<Literal>, cells: seq<seq<Literal>>, rows: nat, separator: char): (t: RawTable)
    requires forall j :: 0 <= j < |cells| ==> |cells[j]| == rows
    ensures t.Rectangular() <==> |cells| == |waves| + 1
    ensures |t.headers| == |waves| + 1 && t.headers[0] == timeHeader
    ensures forall j :: 1 <= j < |t.headers| ==> t.headers[j] == ShowLiteral(waves[j - 1], separator)
    ensures |t.columns| == |cells| && t.rowCount == rows
    ensures forall j :: 0 <= j < |t.columns| ==> |t.columns[j]| == rows
    ensures forall j, i :: 0 <= j < |cells| && 0 <= i < rows ==> t.columns[j][i] == ShowLiteral(cells[j][i], separator)
  {
    RawTable(WriteHeaders(timeHeader, waves, separator), rows, WriteCells(cells, rows, separator))
  }

  /** The header row of a written table: the time header, then each wavelength. */
  function WriteHeaders(timeHeader: string, waves: seq<Literal>, separator: char): (headers: seq<string>)
    ensures |headers| == |waves| + 1 && headers[0] == timeHeader
    ensures forall j :: 1 <= j < |headers| ==> headers[j] == ShowLiteral(waves[j - 1], separator)
  {
    [timeHeader] + seq(|waves|, j requires 0 <= j < |waves| => ShowLiteral(waves[j], separator))
  }

  /** The cells of a written table, column by column. */
  function WriteCells(cells: seq<seq<Literal>>, rows: nat, separator: char): (columns: seq<seq<string>>)
    requires forall j :: 0 <= j < |cells| ==> |cells[j]| == rows
    ensures |columns| == |cells|
    ensures forall j :: 0 <= j < |columns| ==> |columns[j]| == rows
    ensures forall j, i :: 0 <= j < |cells| && 0 <= i < rows ==> columns[j][i] == ShowLiteral(cells[j][i], separator)
  {
    seq(|cells|, j requires 0 <= j < |cells| =>
      seq(rows, i requires 0 <= i < rows => ShowLiteral(cells[j][i], separator)))
  }

  /** Every literal is well formed and every column has `rows` cells. */
  predicate WellFormedLiterals(waves: seq<Literal>, cells: seq<seq<Literal>>, rows: nat) {
    (forall j :: 0 <= j < |waves| ==> waves[j].WellFormed()) &&
    (forall j :: 0 <= j < |cells| ==> |cells[j]| == rows) &&
    (forall j, i :: 0 <= j < |cells| && 0 <= i < |cells[j]| ==> cells[j][i].WellFormed())
  }

  /** A written header row loads back: the time header normalised, and every
      wavelength header as the number that was written, whichever separator. */
  lemma WrittenHeadersLoad(timeHeader: string, waves: seq<Literal>, cells: seq<seq<Literal>>, rows: nat, separator: char)
    requires separator == '.' || separator == ','
    requires WellFormedLiterals(waves, cells, rows)
    ensures var h := NormalizeHeaders(WriteTable(timeHeader, waves, cells, rows, separator).headers);
      |h| == |waves| + 1 && h[0] == NormalizeDecimal(timeHeader) &&
      (forall j :: 1 <= j < |h| ==> h[j] == ShowLiteral(waves[j - 1], '.')) &&
      (forall j :: 1 <= j < |h| ==> ParseNumber(h[j]) == Some(LiteralValue(waves[j - 1]))) &&
      FirstNonNumber(h, 1) == |h|
  {
    var t := WriteTable(timeHeader, waves, cells, rows, separator);
    var h := NormalizeHeaders(t.headers);
    forall j | 1 <= j < |h|
      ensures h[j] == ShowLiteral(waves[j - 1], '.')
      ensures ParseNumber(h[j]) == Some(LiteralValue(waves[j - 1]))
    {
      WrittenHeader(t.headers[j], waves[j - 1], separator);
    }
    AllNumbers(h);
  }

  /** When every header after the first is a number, none is the first that is not. */
  lemma AllNumbers(h: seq<string>)
    requires |h| >= 1 && forall j :: 1 <= j < |h| ==> ParseNumber(h[j]).Some?
    ensures FirstNonNumber(h, 1) == |h|
  {
  }

  /** One wavelength header, written and read back. */
  lemma WrittenHeader(header: string, wave: Literal, separator: char)
    requires separator == '.' || separator == ','
    requires wave.WellFormed() && header == ShowLiteral(wave, separator)
    ensures NormalizeDecimal(header) == ShowLiteral(wave, '.')
    ensures ParseNumber(NormalizeDecimal(header)) == Some(LiteralValue(wave))
  {
    NormalizeShowLiteral(wave, separator);
    ParseShowLiteral(wave, separator);
  }

  lemma WrittenCellsLoad(timeHeader: string, waves: seq<Literal>, cells: seq<seq<Literal>>, rows: nat, separator: char)
    requires separator == '.' || separator == ','
    requires |cells| == |waves| + 1
    requires WellFormedLiterals(waves, cells, rows)
    ensures var t := WriteTable(timeHeader, waves, cells, rows, separator);
      t.Rectangular() && AllCellsNumeric(t) &&
      forall j, i :: 0 <= j < |cells| && 0 <= i < rows ==>
        ParseNumber(NormalizeDecimal(t.columns[j][i])) == Some(LiteralValue(cells[j][i]))
  {
    var t := WriteTable(timeHeader, waves, cells, rows, separator);
    forall j, i | 0 <= j < |cells| && 0 <= i < rows
      ensures ParseNumber(NormalizeDecimal(t.columns[j][i])) == Some(LiteralValue(cells[j][i]))
    {
      assert t.columns[j][i] == ShowLiteral(cells[j][i], separator);
      ParseShowLiteral(cells[j][i], separator);
    }
  }

  /** Loading a written table gives back the numbers that were written, in
      place, with wavelength headers written with a decimal point and every
      row labelled by its position. */
  lemma LoadRoundTrip(path: string, timeHeader: string, waves: seq<Literal>, cells: seq<seq<Literal>>, rows: nat, separator: char)
    requires SupportedPath(path)
    requires separator == '.' || separator == ','
    requires |waves| >= 1 && rows >= 1 && |cells| == |waves| + 1
    requires WellFormedLiterals(waves, cells, rows)
    requires forall p, q :: 0 <= p < q < |waves| ==> LiteralValue(waves[p]) != LiteralValue(waves[q])
    requires forall j :: 0 <= j < |waves| ==> ShowLiteral(waves[j], '.') != NormalizeDecimal(timeHeader)
    ensures var r := Load(path, Some(WriteTable(timeHeader, waves, cells, rows, separator)));
      r.Ok? &&
      r.value.headers[0] == NormalizeDecimal(timeHeader) &&
      |r.value.headers| == |waves| + 1 &&
      (forall j :: 1 <= j < |r.value.headers| ==> r.value.headers[j] == ShowLiteral(waves[j - 1], '.')) &&
      (forall j :: 1 <= j < |r.value.headers| ==> ParseNumber(r.value.headers[j]) == Some(LiteralValue(waves[j - 1]))) &&
      r.value.index == Range(rows) &&
      (forall j, i :: 0 <= j < |cells| && 0 <= i < rows ==> r.value.columns[j][i] == Num(LiteralValue(cells[j][i])))
  {
    var t := WriteTable(timeHeader, waves, cells, rows, separator);
    WrittenHeadersLoad(timeHeader, waves, cells, rows, separator);
    WrittenHeadersDistinct(NormalizeHeaders(t.headers), timeHeader, waves);
    WrittenCellsLoad(timeHeader, waves, cells, rows, separator);
    assert Accepted(path, Some(t));
  }

  /** Written wavelengths of different values, under a time header unlike any
      of them, give a header row in which no name repeats. */
  lemma WrittenHeadersDistinct(h: seq<string>, timeHeader: string, waves: seq<Literal>)
    requires |h| == |waves| + 1 && h[0] == NormalizeDecimal(timeHeader)
    requires forall j :: 0 <= j < |waves| ==> waves[j].WellFormed()
    requires forall j :: 1 <= j < |h| ==> h[j] == ShowLiteral(waves[j - 1], '.')
    requires forall j :: 1 <= j < |h| ==> ParseNumber(h[j]) == Some(LiteralValue(waves[j - 1]))
    requires forall p, q :: 0 <= p < q < |waves| ==> LiteralValue(waves[p]) != LiteralValue(waves[q])
    requires forall j :: 0 <= j < |waves| ==> ShowLiteral(waves[j], '.') != NormalizeDecimal(timeHeader)
    ensures Distinct(h)
  {
    forall p, q | 0 <= p < q < |h|
      ensures h[p] != h[q]
    {
      if p == 0 {
        assert h[q] == ShowLiteral(waves[q - 1], '.');
      } else {
        assert ParseNumber(h[p]) != ParseNumber(h[q]);
      }
    }
  }
}

=== FILE: numbers.dfy ===
/** Reading numbers the way the loader does (`float(text)` and `pd.to_numeric`
    on text whose decimal comma has already become a point), and Python's
    `round(x, 2)` as an integer count of hundredths. */
module Numbers {
  import opened Outcomes
  import opened Text

  /** x * 10^e for any integer exponent, one decimal shift at a time. */
  function ScaleByPow10(x: real, e: int): real
    decreases if e >= 0 then e else -e
  {
    if e == 0 then x
    else if e > 0 then 10.0 * ScaleByPow10(x, e - 1)
    else ScaleByPow10(x, e + 1) / 10.0
  }

  /** Position of the first character of `s` that is one of `marks`, or |s| when none is. */
  function FindFirst(s: string, marks: set<char>): (k: nat)
    ensures k <= |s|
    ensures k < |s| ==> s[k] in marks
    decreases |s|
  {
    if |s| == 0 then 0 else if s[0] in marks then 0 else 1 + FindFirst(s[1..], marks)
  }

  const Point: set<char> := {'.'}

  const ExponentMarks: set<char> := {'e', 'E'}

  /** The value of the digits after a decimal point: "25" is 0.25. */
  function FractionValue(fraction: string): real
    requires AllDigits(fraction)
  {
    ScaleByPow10(DigitsValue(fraction) as real, -|fraction|)
  }

  /** Unsigned mantissa: digits, optionally a point and more digits, with at
      least one digit in all ("12", "12.", ".5", "12.5"). */
  function ParseMantissa(s: string): Option<real> {
    var k := FindFirst(s, Point);
    var whole := s[..k];
    var fraction := if k < |s| then s[k + 1..] else "";
    if !AllDigits(whole) || !AllDigits(fraction) || |whole| + |fraction| == 0 then None
    else Some(DigitsValue(whole) as real + FractionValue(fraction))
  }

  /** Exponent after the 'e': an optional sign and at least one digit. */
  function ParseExponent(s: string): Option<int> {
    var negative := |s| > 0 && s[0] == '-';
    var digits := if |s| > 0 && (s[0] == '-' || s[0] == '+') then s[1..] else s;
    if |digits| == 0 || !AllDigits(digits) then None
    else
      var magnitude: int := DigitsValue(digits);
      Some(if negative then -magnitude else magnitude)
  }

  function ParseUnsigned(s: string): Option<real> {
    var k := FindFirst(s, ExponentMarks);
    var mantissa := ParseMantissa(s[..k]);
    if mantissa.None? then None
    else if k == |s| then mantissa
    else
      var exponent := ParseExponent(s[k + 1..]);
      if exponent.None? then None else Some(ScaleByPow10(mantissa.value, exponent.value))
  }

  /** A decimal literal with optional sign and exponent, as Python's `float`
      reads one; `None` where `float` raises `ValueError`. */
  function ParseNumber(s: string): Option<real> {
    if |s| > 0 && s[0] == '-' then
      var u := ParseUnsigned(s[1..]);
      if u.None? then None else Some(-u.value)
    else if |s| > 0 && s[0] == '+' then ParseUnsigned(s[1..])
    else ParseUnsigned(s)
  }

  predicate IsNumber(s: string) {
    ParseNumber(s).Some?
  }

  /** A decimal literal as it is written in a data file: an optional '-', the
      whole digits, fraction digits after the separator when there are any, and
      an exponent when there is one (Python prints 0.00001 as "1e-05"). */
  datatype Literal = Literal(negative: bool, whole: string, fraction: string, exponentNegative: bool, exponent: string) {
    predicate WellFormed() {
      |whole| >= 1 && AllDigits(whole) && AllDigits(fraction) && AllDigits(exponent)
    }
  }

  function ExponentValue(l: Literal): int
    requires l.WellFormed()
  {
    var magnitude: int := DigitsValue(l.exponent);
    if l.exponentNegative then -magnitude else magnitude
  }

  function MagnitudeValue(l: Literal): real
    requires l.WellFormed()
  {
    ScaleByPow10(DigitsValue(l.whole) as real + FractionValue(l.fraction), ExponentValue(l))
  }

  /** The number a literal denotes. */
  function LiteralValue(l: Literal): real
    requires l.WellFormed()
  {
    if l.negative then -MagnitudeValue(l) else MagnitudeValue(l)
  }

  function MantissaText(l: Literal, separator: char): string {
    l.whole + (if |l.fraction| > 0 then [separator] + l.fraction else "")
  }

  function ExponentText(l: Literal): string {
    if |l.exponent| > 0 then "e" + (if l.exponentNegative then "-" else "") + l.exponent else ""
  }

  /** The literal written out with the given decimal separator. */
  function ShowLiteral(l: Literal, separator: char): string {
    (if l.negative then "-" else "") + MantissaText(l, separator) + ExponentText(l)
  }

  lemma {:induction false} FindFirstAppend(a: string, b: string, marks: set<char>)
    requires NoneOf(a, marks)
    ensures FindFirst(a + b, marks) == |a| + FindFirst(b, marks)
    decreases |a|
  {
    if |a| > 0 {
      var s := a + b;
      assert s[0] == a[0];
      assert s[1..] == a[1..] + b;
      FindFirstAppend(a[1..], b, marks);
    } else {
      assert a + b == b;
    }
  }

  lemma MantissaRoundTrip(l: Literal)
    requires l.WellFormed()
    ensures ParseMantissa(MantissaText(l, '.')) == Some(DigitsValue(l.whole) as real + FractionValue(l.fraction))
  {
    var tail := if |l.fraction| > 0 then "." + l.fraction else "";
    var s := MantissaText(l, '.');
    DigitsAvoid(l.whole, Point);
    FindFirstAppend(l.whole, tail, Point);
    var k := FindFirst(s, Point);
    assert k == |l.whole|;
    assert s[..k] == l.whole;
    if |l.fraction| > 0 {
      assert s[k + 1..] == l.fraction;
    }
  }

  lemma MantissaHasNoExponentMark(l: Literal)
    requires l.WellFormed()
    ensures NoneOf(MantissaText(l, '.'), ExponentMarks)
  {
    DigitsAvoid(l.whole, ExponentMarks);
    if |l.fraction| > 0 {
      DigitsAvoid(l.fraction, ExponentMarks);
      NoneOfAppend(".", l.fraction, ExponentMarks);
      NoneOfAppend(l.whole, "." + l.fraction, ExponentMarks);
    } else {
      assert MantissaText(l, '.') == l.whole;
    }
  }

  lemma ExponentRoundTrip(l: Literal)
    requires l.WellFormed() && |l.exponent| > 0
    ensures ParseExponent((if l.exponentNegative then "-" else "") + l.exponent) == Some(ExponentValue(l))
  {
    var t := (if l.exponentNegative then "-" else "") + l.exponent;
    if l.exponentNegative {
      assert t[1..] == l.exponent;
    } else {
      assert t == l.exponent;
    }
  }

  lemma ParseUnsignedWithoutExponent(m: string)
    requires NoneOf(m, ExponentMarks)
    ensures ParseUnsigned(m) == ParseMantissa(m)
  {
    FindFirstAppend(m, "", ExponentMarks);
    assert m + "" == m;
    assert m[..|m|] == m;
  }

  lemma ParseUnsignedWithExponent(m: string, e: string, mantissa: real, exponent: int)
    requires NoneOf(m, ExponentMarks)
    requires ParseMantissa(m) == Some(mantissa)
    requires ParseExponent(e) == Some(exponent)
    ensures ParseUnsigned(m + "e" + e) == Some(ScaleByPow10(mantissa, exponent))
  {
    var s := m + "e" + e;
    FindFirstAppend(m, "e" + e, ExponentMarks);
    assert m + "e" + e == m + ("e" + e);
    assert s[..|m|] == m;
    assert s[|m| + 1..] == e;
  }

  lemma ParseUnsignedShowExponent(l: Literal)
    requires l.WellFormed() && |l.exponent| > 0
    ensures ParseUnsigned(MantissaText(l, '.') + ExponentText(l)) == Some(MagnitudeValue(l))
  {
    var m := MantissaText(l, '.');
    var e := (if l.exponentNegative then "-" else "") + l.exponent;
    var mantissa := DigitsValue(l.whole) as real + FractionValue(l.fraction);
    MantissaHasNoExponentMark(l);
    MantissaRoundTrip(l);
    ExponentRoundTrip(l);
    assert ExponentText(l) == "e" + e;
    ParseUnsignedJoin(m, ExponentText(l), e, mantissa, ExponentValue(l));
    assert MagnitudeValue(l) == ScaleByPow10(mantissa, ExponentValue(l));
  }

  /** The same, with the exponent part given as one piece of text. */
  lemma ParseUnsignedJoin(m: string, x: string, e: string, mantissa: real, exponent: int)
    requires x == "e" + e && NoneOf(m, ExponentMarks)
    requires ParseMantissa(m) == Some(mantissa) && ParseExponent(e) == Some(exponent)
    ensures ParseUnsigned(m + x) == Some(ScaleByPow10(mantissa, exponent))
  {
    ParseUnsignedWithExponent(m, e, mantissa, exponent);
    assert m + x == m + "e" + e;
  }

  lemma ParseUnsignedShowPlain(l: Literal)
    requires l.WellFormed() && |l.exponent| == 0
    ensures ParseUnsigned(MantissaText(l, '.') + ExponentText(l)) == Some(MagnitudeValue(l))
  {
    var m := MantissaText(l, '.');
    MantissaHasNoExponentMark(l);
    MantissaRoundTrip(l);
    ParseUnsignedWithoutExponent(m);
    assert m + ExponentText(l) == m;
    assert ExponentValue(l) == 0;
  }

  lemma ParseUnsignedShow(l: Literal)
    requires l.WellFormed()
    ensures ParseUnsigned(MantissaText(l, '.') + ExponentText(l)) == Some(MagnitudeValue(l))
  {
    if |l.exponent| > 0 {
      ParseUnsignedShowExponent(l);
    } else {
      ParseUnsignedShowPlain(l);
    }
  }

  /** A leading '-' negates what follows; no sign leaves it as it is. */
  lemma ParseNumberSigned(body: string, magnitude: real)
    requires |body| > 0 && IsDigit(body[0])
    requires ParseUnsigned(body) == Some(magnitude)
    ensures ParseNumber(body) == Some(magnitude)
    ensures ParseNumber("-" + body) == Some(-magnitude)
  {
    assert ("-" + body)[1..] == body;
  }

  lemma ParseShowLiteralPoint(l: Literal)
    requires l.WellFormed()
    ensures ParseNumber(ShowLiteral(l, '.')) == Some(LiteralValue(l))
  {
    var sign := if l.negative then "-" else "";
    var body := MantissaText(l, '.') + ExponentText(l);
    assert ShowLiteral(l, '.') == sign + body;
    ParseUnsignedShow(l);
    assert body[0] == l.whole[0];
    ParseNumberSigned(body, MagnitudeValue(l));
    if l.negative {
      assert ParseNumber(sign + body) == Some(-MagnitudeValue(l));
    } else {
      assert sign + body == body;
    }
  }

  lemma NormalizeMantissa(l: Literal, separator: char)
    requires l.WellFormed()
    requires separator == '.' || separator == ','
    ensures NormalizeDecimal(MantissaText(l, separator)) == MantissaText(l, '.')
  {
    NormalizeDigits(l.whole);
    if |l.fraction| > 0 {
      NormalizeDecimalAppend(l.whole, [separator] + l.fraction);
      NormalizeDecimalAppend([separator], l.fraction);
      NormalizeDigits(l.fraction);
      assert NormalizeDecimal([separator]) == ".";
    } else {
      assert MantissaText(l, separator) == l.whole;
    }
  }

  lemma NormalizeExponent(l: Literal)
    requires l.WellFormed()
    ensures NormalizeDecimal(ExponentText(l)) == ExponentText(l)
  {
    if |l.exponent| > 0 {
      var head := "e" + (if l.exponentNegative then "-" else "");
      NormalizeDecimalAppend(head, l.exponent);
      NormalizeDigits(l.exponent);
      NoneOfAppend("e", if l.exponentNegative then "-" else "", {','});
      NormalizeWithoutComma(head);
    }
  }

  lemma NormalizeShowLiteral(l: Literal, separator: char)
    requires l.WellFormed()
    requires separator == '.' || separator == ','
    ensures NormalizeDecimal(ShowLiteral(l, separator)) == ShowLiteral(l, '.')
  {
    var sign := if l.negative then "-" else "";
    NormalizeDecimalAppend(sign + MantissaText(l, separator), ExponentText(l));
    NormalizeDecimalAppend(sign, MantissaText(l, separator));
    NormalizeWithoutComma(sign);
    NormalizeMantissa(l, separator);
    NormalizeExponent(l);
  }

  /** Reading a written literal back gives its value, whichever decimal
      separator it was written with, once the comma is normalised to a point. */
  lemma ParseShowLiteral(l: Literal, separator: char)
    requires l.WellFormed()
    requires separator == '.' || separator == ','
    ensures ParseNumber(NormalizeDecimal(ShowLiteral(l, separator))) == Some(LiteralValue(l))
  {
    NormalizeShowLiteral(l, separator);
    ParseShowLiteralPoint(l);
  }

  /** Python's `round(x, 2)` on an exact value: the nearest whole number of
      hundredths, ties going to the even neighbour. */
  function RoundHundredths(x: real): (k: int)
    ensures -0.5 <= 100.0 * x - k as real <= 0.5
    ensures (100.0 * x - k as real == 0.5 || 100.0 * x - k as real == -0.5) ==> k % 2 == 0
  {
    var y := 100.0 * x;
    var f := y.Floor;
    var d := y - f as real;
    if d < 0.5 then f
    else if d > 0.5 then f + 1
    else if f % 2 == 0 then f
    else f + 1
  }

  function Distance(a: real, b: real): real {
    if a >= b then a - b else b - a
  }

  /** No other integer is as close to 100x, so the rounded key is well defined. */
  lemma RoundHundredthsNearest(x: real, j: int)
    ensures Distance(100.0 * x, RoundHundredths(x) as real) <= Distance(100.0 * x, j as real)
  {
    var y := 100.0 * x;
    var k := RoundHundredths(x);
    if j < k {
      assert j as real <= k as real - 1.0;
    } else if j > k {
      assert j as real >= k as real + 1.0;
    }
  }

  /** Two wavelengths that share a rounded key lie at most 0.01 apart. */
  lemma SameKeyClose(a: real, b: real)
    requires RoundHundredths(a) == RoundHundredths(b)
    ensures -0.01 <= a - b <= 0.01
  {
  }
}

=== FILE: outcomes.dfy ===
/** Success/failure values for the processing pipeline.

    Every exception the pipeline can raise is one constructor of `Error`; the
    source rewraps all of them into a `ValueError` whose message names the kind,
    so the kind is what a caller can tell apart. */
module Outcomes {

  datatype Option<+T> = None | Some(value: T)

  datatype Error =
    | UnsupportedFormat                     // path does not end in a supported extension
    | ReadFailed                            // the file could not be opened or read as a table
    | EmptyFile                             // the table has no rows (or no columns)
    | TooFewColumns                         // fewer than a time column and one wavelength column
    | InvalidHeader(header: string)         // a wavelength header is not a number
    | NonNumericData                        // some cell is not a number
    | EmptySignal                           // validation: the signal table is empty
    | InsufficientData(rows: nat, window: int)  // validation: fewer rows than the window
    | NotAWavelength(header: string)        // `float(col)` fails on a header after loading
    | NoCommonWavelengths
    | NoCommonTimePoints
    | InvalidWindowSize(window: int)        // the convolution kernel cannot be built, or is empty
    | EmptyColumn                           // the convolution input is empty
    | LengthMismatch(rows: nat, length: nat)  // a smoothed column does not fit the table

  datatype Result<+T> = Ok(value: T) | Err(error: Error) {

    predicate IsFailure() {
      Err?
    }

    function PropagateFailure<U>(): Result<U>
      requires Err?
    {
      Err(error)
    }

    function Extract(): T
      requires Ok?
    {
      value
    }
  }
}

=== FILE: pipeline.dfy ===
/** `DataProcessor.process_files` and the `ProcessedData` it produces.

    The Qt signals become a list of events: the progress percentages emitted
    along the way, then either the completed result or the error that stopped
    the run. The tables the two readers produce are parameters. */
module Pipeline {
  import opened Outcomes
  import opened Values
  import opened Text
  import opened Numbers
  import opened Frames
  import opened Loader
  import opened Validator
  import opened Aligner
  import opened Smoother

  /** Everything one successful run hands to its consumers. */
  datatype ProcessedData = ProcessedData(
    signalData: Frame,
    referenceData: Option<Frame>,
    signalCommon: Option<Frame>,
    darkCommon: Option<Frame>,
    commonData: Frame,
    movingAverageData: Frame,
    wavelengths: seq<real>,
    timePoints: seq<Value>,
    movingAverageWindow: int)

  const SummaryHead: string := "Data processing complete:\n- Number of wavelengths: "
  const SummaryTimes: string := "\n- Number of time points: "
  const SummaryWindow: string := "\n- Moving average window: "

  /** `ProcessedData.get_summary`. */
  function Summary(d: ProcessedData): string {
    SummaryHead + (ShowNat(|d.wavelengths|) + (SummaryTimes + (ShowNat(|d.timePoints|) + (SummaryWindow + ShowInt(d.movingAverageWindow)))))
  }

  /** Length of the run of digits a string starts with. */
  function DigitRun(s: string): (k: nat)
    ensures k <= |s|
    decreases |s|
  {
    if |s| > 0 && IsDigit(s[0]) then 1 + DigitRun(s[1..]) else 0
  }

  lemma {:induction false} DigitRunAppend(u: string, x: string)
    requires AllDigits(u)
    requires |x| >= 1 && !IsDigit(x[0])
    ensures DigitRun(u + x) == |u|
    decreases |u|
  {
    if |u| > 0 {
      assert (u + x)[0] == u[0];
      assert (u + x)[1..] == u[1..] + x;
      DigitRunAppend(u[1..], x);
    } else {
      assert u + x == x;
    }
  }

  /** A digit string followed by text that starts with a non-digit can be
      split off again. */
  lemma SplitDigits(u: string, x: string, v: string, y: string)
    requires AllDigits(u) && AllDigits(v)
    requires |x| >= 1 && !IsDigit(x[0]) && |y| >= 1 && !IsDigit(y[0])
    requires u + x == v + y
    ensures u == v && x == y
  {
    DigitRunAppend(u, x);
    DigitRunAppend(v, y);
    assert u == (u + x)[..|u|];
    assert v == (v + y)[..|v|];
    assert x == (u + x)[|u|..];
    assert y == (v + y)[|v|..];
  }

  /** The summary determines the three numbers it reports. */
  lemma SummaryInjective(a: ProcessedData, b: ProcessedData)
    requires Summary(a) == Summary(b)
    ensures |a.wavelengths| == |b.wavelengths|
    ensures |a.timePoints| == |b.timePoints|
    ensures a.movingAverageWindow == b.movingAverageWindow
  {
    var tailA := ShowNat(|a.wavelengths|) + (SummaryTimes + (ShowNat(|a.timePoints|) + (SummaryWindow + ShowInt(a.movingAverageWindow))));
    var tailB := ShowNat(|b.wavelengths|) + (SummaryTimes + (ShowNat(|b.timePoints|) + (SummaryWindow + ShowInt(b.movingAverageWindow))));
    assert tailA == Summary(a)[|SummaryHead|..];
    assert tailB == Summary(b)[|SummaryHead|..];
    SplitDigits(ShowNat(|a.wavelengths|), SummaryTimes + (ShowNat(|a.timePoints|) + (SummaryWindow + ShowInt(a.movingAverageWindow))),
      ShowNat(|b.wavelengths|), SummaryTimes + (ShowNat(|b.timePoints|) + (SummaryWindow + ShowInt(b.movingAverageWindow))));
    ShowNatInjective(|a.wavelengths|, |b.wavelengths|);
    var midA := ShowNat(|a.timePoints|) + (SummaryWindow + ShowInt(a.movingAverageWindow));
    var midB := ShowNat(|b.timePoints|) + (SummaryWindow + ShowInt(b.movingAverageWindow));
    assert midA == (SummaryTimes + midA)[|SummaryTimes|..];
    assert midB == (SummaryTimes + midB)[|SummaryTimes|..];
    SplitDigits(ShowNat(|a.timePoints|), SummaryWindow + ShowInt(a.movingAverageWindow),
      ShowNat(|b.timePoints|), SummaryWindow + ShowInt(b.movingAverageWindow));
    ShowNatInjective(|a.timePoints|, |b.timePoints|);
    var endA := SummaryWindow + ShowInt(a.movingAverageWindow);
    var endB := SummaryWindow + ShowInt(b.movingAverageWindow);
    assert ShowInt(a.movingAverageWindow) == endA[|SummaryWindow|..];
    assert ShowInt(b.movingAverageWindow) == endB[|SummaryWindow|..];
    ShowIntInjective(a.movingAverageWindow, b.movingAverageWindow);
  }

  /** `_get_wavelengths`: `float` of every header after the time column. */
  function Wavelengths(f: Frame): (r: Result<seq<real>>)
    requires |f.headers| >= 1
    ensures r.Ok? <==> forall j :: 1 <= j < |f.headers| ==> IsNumber(f.headers[j])
    ensures r.Ok? ==> (|r.value| == |f.headers| - 1 &&
      forall j :: 1 <= j < |f.headers| ==> ParseNumber(f.headers[j]) == Some(r.value[j - 1]))
  {
    Parse(f.headers[1..])
  }

  function Parse(headers: seq<string>): (r: Result<seq<real>>)
    ensures r.Ok? <==> forall j :: 0 <= j < |headers| ==> IsNumber(headers[j])
    ensures r.Ok? ==> (|r.value| == |headers| &&
      forall j :: 0 <= j < |headers| ==> ParseNumber(headers[j]) == Some(r.value[j]))
    ensures r.Err? ==> r.error.NotAWavelength?
    decreases |headers|
  {
    if |headers| == 0 then Ok([])
    else
      var v := ParseNumber(headers[0]);
      if v.None? then Err(NotAWavelength(headers[0]))
      else
        var rest := Parse(headers[1..]);
        if rest.Err? then rest else Ok([v.value] + rest.value)
  }

  /** `_get_time_points`: the time column. */
  function TimePoints(f: Frame): seq<Value>
    requires |f.columns| >= 1
  {
    f.columns[0]
  }

  datatype Event = Progress(percent: nat) | Completed(result: ProcessedData) | Failed(error: Error)

  /** The progress percentages, in the order they are emitted. */
  const Milestones: seq<nat> := [10, 30, 50, 80, 100]

  /** A reference path that is absent or empty means there is no reference. */
  predicate UsesReference(referencePath: Option<string>) {
    referencePath.Some? && |referencePath.value| > 0
  }

  /** How far a run got: the number of progress events emitted, and the
      result or the error that ended it. */
  datatype Run = Run(reached: nat, outcome: Result<ProcessedData>)

  function Execute(signalPath: string, referencePath: Option<string>, window: int,
                   signalRead: Option<RawTable>, referenceRead: Option<RawTable>): (r: Run)
    requires signalRead.Some? ==> signalRead.value.Rectangular()
    requires referenceRead.Some? ==> referenceRead.value.Rectangular()
    ensures 1 <= r.reached <= |Milestones|
    ensures r.outcome.Ok? <==> r.reached == |Milestones|
  {
    var signal := Load(signalPath, signalRead);
    if signal.Err? then Run(1, Err(signal.error))
    else
      var reference := if UsesReference(referencePath) then Some(Load(referencePath.value, referenceRead)) else None;
      if reference.Some? && reference.value.Err? then Run(1, Err(reference.value.error))
      else
        var referenceData := if reference.Some? then Some(reference.value.value) else None;
        var valid := Validate(signal.value, window);
        if valid.Err? then Run(1, Err(valid.error))
        else
          var aligned := Align(signal.value, referenceData);
          if aligned.Err? then Run(2, Err(aligned.error))
          else
            var processed := ProcessData(aligned.value.difference, window);
            if processed.Err? then Run(3, Err(processed.error))
            else
              var (raw, smoothed) := processed.value;
              var wavelengths := Wavelengths(raw);
              if wavelengths.Err? then Run(4, Err(wavelengths.error))
              else
                Run(5, Ok(ProcessedData(signal.value, referenceData, aligned.value.signalCommon,
                  aligned.value.referenceCommon, raw, smoothed, wavelengths.value, TimePoints(raw), window)))
  }

  /** `process_files`: the events emitted, and the result (`None` on error). */
  function ProcessFiles(signalPath: string, referencePath: Option<string>, window: int,
                        signalRead: Option<RawTable>, referenceRead: Option<RawTable>): (r: (seq<Event>, Option<ProcessedData>))
    requires signalRead.Some? ==> signalRead.value.Rectangular()
    requires referenceRead.Some? ==> referenceRead.value.Rectangular()
    ensures var (events, result) := r;
      2 <= |events| <= |Milestones| + 1 &&
      (forall i :: 0 <= i < |events| - 1 ==> events[i] == Progress(Milestones[i])) &&
      (result.Some? ==> events[|events| - 1] == Completed(result.value)) &&
      (result.None? <==> events[|events| - 1].Failed?) &&
      (result.Some? <==> |events| == |Milestones| + 1)
  {
    var run := Execute(signalPath, referencePath, window, signalRead, referenceRead);
    var progress := seq(run.reached, i requires 0 <= i < run.reached => Progress(Milestones[i]));
    if run.outcome.Ok? then (progress + [Completed(run.outcome.value)], Some(run.outcome.value))
    else (progress + [Failed(run.outcome.error)], None)
  }

  /** Progress only grows, and a completed run reports 100 last. */
  lemma ProgressIncreases(signalPath: string, referencePath: Option<string>, window: int,
                          signalRead: Option<RawTable>, referenceRead: Option<RawTable>)
    requires signalRead.Some? ==> signalRead.value.Rectangular()
    requires referenceRead.Some? ==> referenceRead.value.Rectangular()
    ensures var events := ProcessFiles(signalPath, referencePath, window, signalRead, referenceRead).0;
      (forall a, b :: 0 <= a < b < |events| - 1 ==> events[a].percent < events[b].percent) &&
      (events[|events| - 1].Completed? ==> events[|events| - 2] == Progress(100))
  {
  }

  /** A successful run starts from the loaded tables and keeps the aligner's
      three tables as they come. */
  lemma ProcessFilesSuccessTables(signalPath: string, referencePath: Option<string>, window: int,
                                  signalRead: Option<RawTable>, referenceRead: Option<RawTable>, d: ProcessedData)
    requires signalRead.Some? ==> signalRead.value.Rectangular()
    requires referenceRead.Some? ==> referenceRead.value.Rectangular()
    requires ProcessFiles(signalPath, referencePath, window, signalRead, referenceRead).1 == Some(d)
    ensures Load(signalPath, signalRead) == Ok(d.signalData)
    ensures UsesReference(referencePath) ==>
      Load(referencePath.value, referenceRead).Ok? &&
      d.referenceData == Some(Load(referencePath.value, referenceRead).value)
    ensures !UsesReference(referencePath) ==> d.referenceData.None?
    ensures Align(d.signalData, d.referenceData) ==
      Ok(Aligned(d.commonData, d.signalCommon, d.darkCommon))
  {
  }

  /** In a successful run the window fits the common data, which has no more
      rows than the signal, and the smoothed table is the common data with
      every wavelength column replaced by its moving average. */
  lemma ProcessFilesSuccessSmoothing(signalPath: string, referencePath: Option<string>, window: int,
                                     signalRead: Option<RawTable>, referenceRead: Option<RawTable>, d: ProcessedData)
    requires signalRead.Some? ==> signalRead.value.Rectangular()
    requires referenceRead.Some? ==> referenceRead.value.Rectangular()
    requires ProcessFiles(signalPath, referencePath, window, signalRead, referenceRead).1 == Some(d)
    ensures d.movingAverageWindow == window
    ensures 1 <= window <= d.commonData.Rows() <= d.signalData.Rows()
    ensures d.commonData.headers == d.signalData.headers
    ensures d.movingAverageData.headers == d.commonData.headers
    ensures d.movingAverageData.index == d.commonData.index
    ensures |d.movingAverageData.columns| == |d.commonData.columns| >= 1
    ensures d.movingAverageData.columns[0] == d.commonData.columns[0]
    ensures forall j :: 1 <= j < |d.commonData.columns| ==>
      MovingAverage(d.commonData.columns[j], window) == Ok(d.movingAverageData.columns[j])
  {
    ProcessFilesSuccessTables(signalPath, referencePath, window, signalRead, referenceRead, d);
    if d.referenceData.Some? {
      AlignKeepsCommonTimes(d.signalData, d.referenceData.value);
    }
  }

  /** In a successful run the wavelengths are the signal's headers after the
      time column, read as numbers, and the time points are the common data's
      time column. */
  lemma ProcessFilesSuccessAxes(signalPath: string, referencePath: Option<string>, window: int,
                                signalRead: Option<RawTable>, referenceRead: Option<RawTable>, d: ProcessedData)
    requires signalRead.Some? ==> signalRead.value.Rectangular()
    requires referenceRead.Some? ==> referenceRead.value.Rectangular()
    requires ProcessFiles(signalPath, referencePath, window, signalRead, referenceRead).1 == Some(d)
    ensures |d.wavelengths| == |d.signalData.headers| - 1
    ensures forall j :: 1 <= j < |d.signalData.headers| ==> ParseNumber(d.signalData.headers[j]) == Some(d.wavelengths[j - 1])
    ensures |d.commonData.columns| >= 1 && d.timePoints == d.commonData.columns[0]
  {
    ProcessFilesSuccessTables(signalPath, referencePath, window, signalRead, referenceRead, d);
  }

  /** Without a reference (no path, or an empty one) the common data is the
      signal itself and there are no filtered tables. */
  lemma ProcessFilesWithoutReference(signalPath: string, referencePath: Option<string>, window: int,
                                     signalRead: Option<RawTable>, referenceRead: Option<RawTable>)
    requires signalRead.Some? ==> signalRead.value.Rectangular()
    requires referenceRead.Some? ==> referenceRead.value.Rectangular()
    requires !UsesReference(referencePath)
    ensures var (events, result) := ProcessFiles(signalPath, referencePath, window, signalRead, referenceRead);
      result.Some? <==> Load(signalPath, signalRead).Ok? && 1 <= window <= signalRead.value.rowCount
    ensures var result := ProcessFiles(signalPath, referencePath, window, signalRead, referenceRead).1;
      result.Some? ==>
        result.value.commonData == result.value.signalData &&
        result.value.referenceData.None? && result.value.signalCommon.None? && result.value.darkCommon.None?
  {
    var signal := Load(signalPath, signalRead);
    if signal.Ok? {
      var f := signal.value;
      assert forall j :: 1 <= j < |f.headers| ==> IsNumber(f.headers[j]);
    }
  }

  /** A signal path with an unsupported extension fails right after the first
      progress report, before anything is read. */
  lemma ProcessFilesUnsupported(signalPath: string, referencePath: Option<string>, window: int,
                                signalRead: Option<RawTable>, referenceRead: Option<RawTable>)
    requires signalRead.Some? ==> signalRead.value.Rectangular()
    requires referenceRead.Some? ==> referenceRead.value.Rectangular()
    requires !SupportedPath(signalPath)
    ensures ProcessFiles(signalPath, referencePath, window, signalRead, referenceRead) ==
      ([Progress(10), Failed(UnsupportedFormat)], None)
  {
    var run := Execute(signalPath, referencePath, window, signalRead, referenceRead);
    assert run == Run(1, Err(UnsupportedFormat));
    var progress := seq(run.reached, i requires 0 <= i < run.reached => Progress(Milestones[i]));
    assert progress == [Progress(10)];
    assert progress + [Failed(UnsupportedFormat)] == [Progress(10), Failed(UnsupportedFormat)];
    assert ProcessFiles(signalPath, referencePath, window, signalRead, referenceRead) == (progress + [Failed(UnsupportedFormat)], None);
  }

  /** The number of progress reports before an error of this kind, for the
      kinds only one stage raises. */
  function StageOf(e: Error): nat {
    match e
    case NoCommonWavelengths | NoCommonTimePoints => 2
    case InvalidWindowSize(_) | EmptyColumn | LengthMismatch(_, _) => 3
    case NotAWavelength(_) => 2
    case _ => 1
  }

  /** Which stage an error stops a run at: loading and validation errors come
      after 10%, alignment errors after 30%, smoothing errors after 50%. A
      header that does not read as a number after loading (which the loader
      rules out) would stop the run after 30% or 80%. */
  lemma ExecuteFailureStage(signalPath: string, referencePath: Option<string>, window: int,
                            signalRead: Option<RawTable>, referenceRead: Option<RawTable>)
    requires signalRead.Some? ==> signalRead.value.Rectangular()
    requires referenceRead.Some? ==> referenceRead.value.Rectangular()
    ensures var run := Execute(signalPath, referencePath, window, signalRead, referenceRead);
      run.outcome.Err? ==>
        (run.reached == StageOf(run.outcome.error) || (run.outcome.error.NotAWavelength? && run.reached == 4))
  {
    if Load(signalPath, signalRead).Ok? && (UsesReference(referencePath) ==> Load(referencePath.value, referenceRead).Ok?) {
      LoadedFailureStage(signalPath, referencePath, window, signalRead, referenceRead);
    }
  }

  /** The same, once both tables have loaded. */
  lemma LoadedFailureStage(signalPath: string, referencePath: Option<string>, window: int,
                           signalRead: Option<RawTable>, referenceRead: Option<RawTable>)
    requires signalRead.Some? ==> signalRead.value.Rectangular()
    requires referenceRead.Some? ==> referenceRead.value.Rectangular()
    requires Load(signalPath, signalRead).Ok?
    requires UsesReference(referencePath) ==> Load(referencePath.value, referenceRead).Ok?
    ensures var run := Execute(signalPath, referencePath, window, signalRead, referenceRead);
      run.outcome.Err? ==>
        (run.reached == StageOf(run.outcome.error) || (run.outcome.error.NotAWavelength? && run.reached == 4))
  {
  }

  lemma ProcessFilesFailureStage(signalPath: string, referencePath: Option<string>, window: int,
                                 signalRead: Option<RawTable>, referenceRead: Option<RawTable>)
    requires signalRead.Some? ==> signalRead.value.Rectangular()
    requires referenceRead.Some? ==> referenceRead.value.Rectangular()
    ensures var events := ProcessFiles(signalPath, referencePath, window, signalRead, referenceRead).0;
      events[|events| - 1].Failed? ==>
        (|events| == StageOf(events[|events| - 1].error) + 1 ||
         (events[|events| - 1].error.NotAWavelength? && |events| == 5))
  {
    ExecuteFailureStage(signalPath, referencePath, window, signalRead, referenceRead);
  }

  /** What validation does guarantee: a positive window no larger than the
      signal smooths the whole signal table, every column keeping its length. */
  lemma ValidatedSignalSmooths(signal: Frame, window: int)
    requires signal.WellFormed() && window >= 1
    requires Validate(signal, window).Ok?
    ensures ProcessData(signal, window).Ok?
    ensures forall j :: 1 <= j < |signal.columns| ==>
      |ProcessData(signal, window).value.1.columns[j]| == signal.Rows()
  {
  }

  /** What it does not: validation counts the rows before alignment filters
      them. A three-row signal passes with a window of three, but only two of
      its times occur in the reference, and smoothing a two-row column with a
      three-tap window yields three values that no longer fit the table. */
  lemma ValidationPrecedesFiltering(headers: seq<string>)
    requires |headers| == 2 && IsNumber(headers[1])
    ensures Validate(ShiftedSignal(headers), 3).Ok?
    ensures var a := Align(ShiftedSignal(headers), Some(ShiftedReference(headers)));
      a.Ok? && a.value.difference.Rows() == 2 &&
      ProcessData(a.value.difference, 3) == Err(LengthMismatch(2, 3))
  {
    AlignShiftedTimes(headers);
  }
}

=== FILE: smoother.dfy ===
/** `DataProcessor._moving_average` and `_process_data`: every wavelength
    column is convolved with a uniform kernel of `window` taps of weight
    1/window, keeping numpy's `mode='same'` output (the centre of the full
    convolution, as long as the longer of the two inputs). */
module Smoother {
  import opened Outcomes
  import opened Values
  import opened Frames

  function Min(a: int, b: int): int {
    if a <= b then a else b
  }

  function Max(a: int, b: int): int {
    if a >= b then a else b
  }

  /** a[lo] + ... + a[hi-1], NaN as soon as one term is NaN. */
  function SumRange(a: seq<Value>, lo: nat, hi: nat): Value
    requires lo <= hi <= |a|
    decreases hi - lo
  {
    if lo == hi then Num(0.0) else Add(SumRange(a, lo, hi - 1), a[hi - 1])
  }

  /** The same sum with every term first multiplied by `c`, the way the
      convolution weighs each sample by its kernel tap. */
  function SumScaled(a: seq<Value>, lo: nat, hi: nat, c: real): Value
    requires lo <= hi <= |a|
    decreases hi - lo
  {
    if lo == hi then Num(0.0) else Add(SumScaled(a, lo, hi - 1, c), Scale(a[hi - 1], c))
  }

  /** Where output 0 of `mode='same'` sits in the full convolution of an
      n-sample column with a w-tap kernel. numpy centres on the shorter of
      the two inputs. */
  function SameOffset(n: nat, w: nat): nat
    requires n >= 1 && w >= 1
  {
    var m := Min(n, w);
    m - 1 - m / 2
  }

  /** The samples that output i sums: full-convolution position k covers the
      samples j with k - w < j <= k that exist. */
  function WindowStart(n: nat, w: nat, i: nat): nat
    requires n >= 1 && w >= 1
  {
    var k := i + SameOffset(n, w);
    if k + 1 >= w then k + 1 - w else 0
  }

  function WindowEnd(n: nat, w: nat, i: nat): nat
    requires n >= 1 && w >= 1
  {
    var k := i + SameOffset(n, w);
    Min(n, k + 1)
  }

  lemma WindowBounds(n: nat, w: nat, i: nat)
    requires n >= 1 && w >= 1 && i < Max(n, w)
    ensures WindowStart(n, w, i) < WindowEnd(n, w, i) <= n
  {
  }

  /** `np.convolve(a, np.ones(window) / window, mode='same')`. `np.ones`
      refuses a negative size. A window of zero builds an empty kernel, and
      `np.convolve` tests its data before its kernel: an empty column is
      refused first, and only then an empty kernel. */
  function MovingAverage(a: seq<Value>, window: int): (r: Result<seq<Value>>)
    ensures window < 0 || (window == 0 && |a| >= 1) ==> r == Err(InvalidWindowSize(window))
    ensures window >= 0 && |a| == 0 ==> r == Err(EmptyColumn)
    ensures r.Ok? <==> window >= 1 && |a| >= 1
    ensures r.Ok? ==> |r.value| == Max(|a|, window)
  {
    if window < 0 then Err(InvalidWindowSize(window))
    else if |a| == 0 then Err(EmptyColumn)
    else if window == 0 then Err(InvalidWindowSize(window))
    else
      var n := |a|;
      Ok(seq(Max(n, window), i requires 0 <= i < Max(n, window) =>
        WindowBounds(n, window, i);
        Scale(SumRange(a, WindowStart(n, window, i), WindowEnd(n, window, i)), 1.0 / window as real)))
  }

  lemma {:induction false} SumScaledIsScaledSum(a: seq<Value>, lo: nat, hi: nat, c: real)
    requires lo <= hi <= |a|
    ensures SumScaled(a, lo, hi, c) == Scale(SumRange(a, lo, hi), c)
    decreases hi - lo
  {
    if lo < hi {
      SumScaledIsScaledSum(a, lo, hi - 1, c);
      var s := SumRange(a, lo, hi - 1);
      if s.Num? && a[hi - 1].Num? {
        assert (s.v + a[hi - 1].v) * c == s.v * c + a[hi - 1].v * c;
      }
    }
  }

  /** The sum is NaN exactly when one of its terms is. */
  lemma {:induction false} SumRangeNaN(a: seq<Value>, lo: nat, hi: nat)
    requires lo <= hi <= |a|
    ensures SumRange(a, lo, hi).NaN? <==> exists j :: lo <= j < hi && a[j].NaN?
    decreases hi - lo
  {
    if lo < hi {
      SumRangeNaN(a, lo, hi - 1);
      if a[hi - 1].NaN? {
        assert exists j :: lo <= j < hi && a[j].NaN?;
      }
    }
  }

  /** Summing k copies of c gives k * c. */
  lemma {:induction false} SumRangeConstant(a: seq<Value>, lo: nat, hi: nat, c: real)
    requires lo <= hi <= |a|
    requires forall j :: lo <= j < hi ==> a[j] == Num(c)
    ensures SumRange(a, lo, hi) == Num((hi - lo) as real * c)
    decreases hi - lo
  {
    if lo < hi {
      SumRangeConstant(a, lo, hi - 1, c);
    }
  }

  /** One output of the full convolution: walk the whole column and add
      every sample under the kernel at position k, each weighted c. */
  method ConvolveAt(a: seq<Value>, window: int, i: nat, k: int, c: real) returns (acc: Value)
    requires window >= 1 && |a| >= 1 && i < Max(|a|, window)
    requires k == i + SameOffset(|a|, window)
    ensures acc == Scale(SumRange(a, WindowStart(|a|, window, i), WindowEnd(|a|, window, i)), c)
  {
    var n := |a|;
    ghost var lo := WindowStart(n, window, i);
    ghost var hi := WindowEnd(n, window, i);
    WindowBounds(n, window, i);
    acc := Num(0.0);
    var j := 0;
    while j < n
      invariant 0 <= j <= n
      invariant acc == SumScaled(a, lo, if j < lo then lo else if j > hi then hi else j, c)
    {
      if k - window < j <= k {
        acc := Add(acc, Scale(a[j], c));
      }
      j := j + 1;
    }
    SumScaledIsScaledSum(a, lo, hi, c);
  }

  /** With a window of zero, an empty column is refused as empty and a
      non-empty one for its empty kernel. */
  lemma ZeroWindowOrder()
    ensures MovingAverage([], 0) == Err(EmptyColumn)
    ensures MovingAverage([Num(1.0)], 0) == Err(InvalidWindowSize(0))
  {
  }

  /** The direct computation numpy performs: every output is a weighted sum
      over the samples under the kernel, each weighted 1/window. */
  method MovingAverageDirect(a: seq<Value>, window: int) returns (r: Result<seq<Value>>)
    ensures r == MovingAverage(a, window)
  {
    if window < 0 {
      return Err(InvalidWindowSize(window));
    }
    if |a| == 0 {
      return Err(EmptyColumn);
    }
    if window == 0 {
      return Err(InvalidWindowSize(window));
    }
    var n := |a|;
    var m := if n <= window then n else window;
    var offset := m - 1 - m / 2;
    var length := if n >= window then n else window;
    var c := 1.0 / window as real;
    ghost var expected := MovingAverage(a, window).value;
    var out: seq<Value> := [];
    var i := 0;
    while i < length
      invariant 0 <= i <= length
      invariant |out| == i
      invariant forall p :: 0 <= p < i ==> out[p] == expected[p]
    {
      var acc := ConvolveAt(a, window, i, i + offset, c);
      out := out + [acc];
      i := i + 1;
    }
    assert out == expected;
    return Ok(out);
  }

  /** For a column at least as long as the window, output i covers the
      samples from i - window/2 up to, not including, i - window/2 + window,
      cut at both ends of the column. */
  function CentredStart(window: int, i: nat): nat {
    var h := window / 2;
    if i >= h then i - h else 0
  }

  function CentredEnd(n: nat, window: int, i: nat): int {
    Min(n, i - window / 2 + window)
  }

  /** The offset is then window - 1 - window/2, which centres the window. */
  lemma CentredWindow(n: nat, w: nat, i: nat)
    requires 1 <= w <= n && i < n
    ensures WindowStart(n, w, i) == CentredStart(w, i)
    ensures WindowEnd(n, w, i) == CentredEnd(n, w, i)
    ensures CentredStart(w, i) <= i < CentredEnd(n, w, i) <= n
  {
  }

  /** Away from the edges an output is the plain mean of the `window` samples
      around it, from i - window/2 on; nearer the edges fewer samples exist
      and their sum is still divided by the full window. */
  lemma MovingAverageWindow(a: seq<Value>, window: int, i: nat)
    requires 1 <= window <= |a| && i < |a|
    ensures CentredStart(window, i) <= i < CentredEnd(|a|, window, i) <= |a|
    ensures MovingAverage(a, window).value[i] ==
      Scale(SumRange(a, CentredStart(window, i), CentredEnd(|a|, window, i)), 1.0 / window as real)
  {
    CentredWindow(|a|, window, i);
  }

  /** With a single tap, output i is sample i. */
  lemma MovingAverageWindowOneAt(a: seq<Value>, i: nat)
    requires i < |a|
    ensures MovingAverage(a, 1).value[i] == a[i]
  {
    CentredWindow(|a|, 1, i);
    assert SumRange(a, i, i + 1) == Add(Num(0.0), a[i]);
    if a[i].Num? {
      assert (0.0 + a[i].v) * (1.0 / 1 as real) == a[i].v;
    }
  }

  /** A window of one leaves every column as it is. */
  lemma MovingAverageWindowOne(a: seq<Value>)
    requires |a| >= 1
    ensures MovingAverage(a, 1) == Ok(a)
  {
    var r := MovingAverage(a, 1).value;
    forall i | 0 <= i < |a|
      ensures r[i] == a[i]
    {
      MovingAverageWindowOneAt(a, i);
    }
    assert r == a;
  }

  /** A constant column keeps its value wherever the whole window fits, and
      tapers towards zero at the edges, where part of the window is missing:
      there the output is the constant times the share of the window that
      exists. */
  lemma MovingAverageConstant(a: seq<Value>, window: int, c: real, i: nat)
    requires 1 <= window <= |a| && i < |a|
    requires forall j :: 0 <= j < |a| ==> a[j] == Num(c)
    ensures CentredStart(window, i) < CentredEnd(|a|, window, i)
    ensures MovingAverage(a, window).value[i] ==
      Num(Share(CentredEnd(|a|, window, i) - CentredStart(window, i), c, window))
  {
    MovingAverageWindow(a, window, i);
    ScaledConstantSum(a, CentredStart(window, i), CentredEnd(|a|, window, i), c, window);
  }

  /** The average of `count` copies of `c` over a window of `window` taps. */
  function Share(count: int, c: real, window: int): real
    requires window >= 1
  {
    count as real * c * (1.0 / window as real)
  }

  /** A sum of equal terms, divided by the window. */
  lemma ScaledConstantSum(a: seq<Value>, lo: nat, hi: nat, c: real, window: int)
    requires lo <= hi <= |a| && window >= 1
    requires forall j :: lo <= j < hi ==> a[j] == Num(c)
    ensures Scale(SumRange(a, lo, hi), 1.0 / window as real) == Num(Share(hi - lo, c, window))
  {
    SumRangeConstant(a, lo, hi, c);
  }

  /** A full window of copies of `c` averages to `c`. */
  lemma ShareFull(c: real, window: int)
    requires window >= 1
    ensures Share(window, c, window) == c
  {
    var w := window as real;
    assert w * c * (1.0 / w) == c;
  }

  /** Away from both edges the window is complete, so a constant column is
      reproduced exactly. */
  lemma MovingAverageConstantInterior(a: seq<Value>, window: int, c: real, i: nat)
    requires 1 <= window <= |a| && window / 2 <= i < |a| && i - window / 2 + window <= |a|
    requires forall j :: 0 <= j < |a| ==> a[j] == Num(c)
    ensures MovingAverage(a, window).value[i] == Num(c)
  {
    MovingAverageConstant(a, window, c, i);
    assert CentredEnd(|a|, window, i) - CentredStart(window, i) == window;
    ShareFull(c, window);
  }

  /** A NaN spoils exactly the outputs whose window covers it. */
  lemma MovingAverageNaN(a: seq<Value>, window: int, i: nat)
    requires 1 <= window && |a| >= 1 && i < Max(|a|, window)
    ensures MovingAverage(a, window).value[i].NaN? <==>
      exists j :: WindowStart(|a|, window, i) <= j < WindowEnd(|a|, window, i) && a[j].NaN?
  {
    WindowBounds(|a|, window, i);
    SumRangeNaN(a, WindowStart(|a|, window, i), WindowEnd(|a|, window, i));
  }

  /** Five samples 1..5 with a window of three smooth to 1, 2, 3, 4, 3: the last
      output has no sample after it. */
  lemma MovingAverageExample(a: seq<Value>)
    requires |a| == 5 && a[0] == Num(1.0) && a[1] == Num(2.0) && a[2] == Num(3.0) && a[3] == Num(4.0) && a[4] == Num(5.0)
    ensures MovingAverage(a, 3) == Ok([Num(1.0), Num(2.0), Num(3.0), Num(4.0), Num(3.0)])
  {
    var r := MovingAverage(a, 3).value;
    ExampleAt(a, 0, 0, 2, 3.0);
    ExampleAt(a, 1, 0, 3, 6.0);
    ExampleAt(a, 2, 1, 4, 9.0);
    ExampleAt(a, 3, 2, 5, 12.0);
    ExampleAt(a, 4, 3, 5, 9.0);
    FiveValues(r, Num(1.0), Num(2.0), Num(3.0), Num(4.0), Num(3.0));
  }

  /** One output of the example: the samples lo..hi-1 under it and their sum. */
  lemma ExampleAt(a: seq<Value>, i: nat, lo: nat, hi: nat, sum: real)
    requires |a| == 5 && a[0] == Num(1.0) && a[1] == Num(2.0) && a[2] == Num(3.0) && a[3] == Num(4.0) && a[4] == Num(5.0)
    requires (i, lo, hi, sum) in {(0, 0, 2, 3.0), (1, 0, 3, 6.0), (2, 1, 4, 9.0), (3, 2, 5, 12.0), (4, 3, 5, 9.0)}
    ensures MovingAverage(a, 3).value[i] == Num(sum / 3.0)
  {
    ExampleSums(a);
    assert CentredStart(3, i) == lo && CentredEnd(5, 3, i) == hi;
    ExampleOutput(a, i, sum);
  }

  /** The window sums of the example, each built one sample at a time. */
  lemma ExampleSums(a: seq<Value>)
    requires |a| == 5 && a[0] == Num(1.0) && a[1] == Num(2.0) && a[2] == Num(3.0) && a[3] == Num(4.0) && a[4] == Num(5.0)
    ensures SumRange(a, 0, 2) == Num(3.0) && SumRange(a, 0, 3) == Num(6.0)
    ensures SumRange(a, 1, 4) == Num(9.0) && SumRange(a, 2, 5) == Num(12.0)
    ensures SumRange(a, 3, 5) == Num(9.0)
  {
    assert SumRange(a, 0, 1) == Num(1.0);
    assert SumRange(a, 0, 2) == Num(3.0);
    assert SumRange(a, 1, 2) == Num(2.0);
    assert SumRange(a, 1, 3) == Num(5.0);
    assert SumRange(a, 2, 3) == Num(3.0);
    assert SumRange(a, 2, 4) == Num(7.0);
    assert SumRange(a, 3, 4) == Num(4.0);
  }

  /** An output of a three-tap average over five samples is the sum of the
      samples under its window divided by three. */
  lemma ExampleOutput(a: seq<Value>, i: nat, sum: real)
    requires |a| == 5 && i < 5
    requires CentredStart(3, i) <= CentredEnd(5, 3, i) <= 5
    requires SumRange(a, CentredStart(3, i), CentredEnd(5, 3, i)) == Num(sum)
    ensures MovingAverage(a, 3).value[i] == Num(sum / 3.0)
  {
    MovingAverageWindow(a, 3, i);
    ScaleThird(sum);
  }

  /** Scaling by a third divides by three. */
  lemma ScaleThird(sum: real)
    ensures Scale(Num(sum), 1.0 / 3 as real) == Num(sum / 3.0)
  {
    assert sum * (1.0 / 3 as real) == sum / 3.0;
  }

  /** A five-element sequence is the display of its elements. */
  lemma FiveValues(r: seq<Value>, x0: Value, x1: Value, x2: Value, x3: Value, x4: Value)
    requires |r| == 5 && r[0] == x0 && r[1] == x1 && r[2] == x2 && r[3] == x3 && r[4] == x4
    ensures r == [x0, x1, x2, x3, x4]
  {
  }

  /** A column shorter than the window comes back as long as the window
      (numpy swaps the two inputs), so it no longer fits its table. */
  lemma MovingAverageShortColumn(a: seq<Value>, window: int)
    requires 1 <= |a| < window
    ensures MovingAverage(a, window).Ok? && |MovingAverage(a, window).value| == window != |a|
  {
  }

  /** The column smooths to exactly `rows` values, so it can be assigned back. */
  predicate ColumnFits(column: seq<Value>, rows: nat, window: int) {
    MovingAverage(column, window).Ok? && |MovingAverage(column, window).value| == rows
  }

  /** Why a column does not fit: numpy's error, or the length pandas refuses. */
  function ColumnError(column: seq<Value>, rows: nat, window: int): Error
    requires !ColumnFits(column, rows, window)
  {
    var smoothed := MovingAverage(column, window);
    if smoothed.Err? then smoothed.error else LengthMismatch(rows, |smoothed.value|)
  }

  /** Smooth each column in turn; the first failure stops the run. A smoothed
      column must have `rows` entries to be assigned back into the table. */
  function SmoothColumns(columns: seq<seq<Value>>, rows: nat, window: int): (r: Result<seq<seq<Value>>>)
    ensures r.Ok? <==> forall j :: 0 <= j < |columns| ==>
      MovingAverage(columns[j], window).Ok? && |MovingAverage(columns[j], window).value| == rows
    ensures r.Err? ==> r.error.InvalidWindowSize? || r.error.EmptyColumn? || r.error.LengthMismatch?
    ensures r.Err? ==> exists j :: (0 <= j < |columns| && !ColumnFits(columns[j], rows, window) &&
      (forall i :: 0 <= i < j ==> ColumnFits(columns[i], rows, window)) &&
      r.error == ColumnError(columns[j], rows, window))
    ensures r.Ok? ==> (|r.value| == |columns| &&
      forall j :: 0 <= j < |columns| ==> r.value[j] == MovingAverage(columns[j], window).value)
    decreases |columns|
  {
    if |columns| == 0 then Ok([])
    else
      var smoothed := MovingAverage(columns[0], window);
      if smoothed.Err? then Err(smoothed.error)
      else if |smoothed.value| != rows then Err(LengthMismatch(rows, |smoothed.value|))
      else
        var rest := SmoothColumns(columns[1..], rows, window);
        if rest.Err? then rest else Ok([smoothed.value] + rest.value)
  }

  /** The first column to fail decides the error. */
  lemma {:induction false} SmoothColumnsFirstError(columns: seq<seq<Value>>, rows: nat, window: int)
    requires forall j :: 0 <= j < |columns| ==> |columns[j]| == rows
    ensures |columns| >= 1 && (window < 0 || (window == 0 && rows >= 1)) ==>
      SmoothColumns(columns, rows, window) == Err(InvalidWindowSize(window))
    ensures |columns| >= 1 && window >= 0 && rows == 0 ==> SmoothColumns(columns, rows, window) == Err(EmptyColumn)
    ensures |columns| >= 1 && 1 <= rows < window ==> SmoothColumns(columns, rows, window) == Err(LengthMismatch(rows, window))
  {
  }

  /** `_process_data`: the raw table is a copy of the input; the smoothed table
      keeps the time column and replaces every wavelength column by its moving
      average. */
  function ProcessData(f: Frame, window: int): (r: Result<(Frame, Frame)>)
    requires f.WellFormed()
    ensures r.Ok? <==> |f.headers| == 1 || 1 <= window <= f.Rows()
    ensures r.Err? ==> r.error.InvalidWindowSize? || r.error.EmptyColumn? || r.error.LengthMismatch?
    ensures |f.headers| >= 2 && (window < 0 || (window == 0 && f.Rows() >= 1)) ==> r == Err(InvalidWindowSize(window))
    ensures |f.headers| >= 2 && 0 <= window && f.Rows() == 0 ==> r == Err(EmptyColumn)
    ensures |f.headers| >= 2 && 1 <= f.Rows() < window ==> r == Err(LengthMismatch(f.Rows(), window))
    ensures r.Ok? ==>
      var (raw, smoothed) := r.value;
      raw == f && smoothed.WellFormed() &&
      smoothed.headers == f.headers && smoothed.index == f.index &&
      smoothed.columns[0] == f.columns[0] &&
      forall j :: 1 <= j < |f.columns| ==> smoothed.columns[j] == MovingAverage(f.columns[j], window).value
  {
    var smoothed := SmoothColumns(f.columns[1..], f.Rows(), window);
    SmoothColumnsFirstError(f.columns[1..], f.Rows(), window);
    if smoothed.Err? then Err(smoothed.error)
    else Ok((f, Frame(f.headers, f.index, [f.columns[0]] + smoothed.value)))
  }
}

=== FILE: text.dfy ===
/** Character-level helpers: ASCII case folding, suffix tests, decimal-comma
    normalisation and decimal digit strings. */
module Text {

  function LowerChar(c: char): char {
    if 'A' <= c <= 'Z' then (c as int + 32) as char else c
  }

  /** `str.lower()` restricted to ASCII letters; every other character is kept. */
  function Lower(s: string): string {
    seq(|s|, i requires 0 <= i < |s| => LowerChar(s[i]))
  }

  predicate EndsWith(s: string, suffix: string) {
    |suffix| <= |s| && s[|s| - |suffix|..] == suffix
  }

  function NormalizeChar(c: char): char {
    if c == ',' then '.' else c
  }

  /** `str.replace(',', '.')`: a decimal comma becomes a decimal point. */
  function NormalizeDecimal(s: string): string
    decreases |s|
  {
    if |s| == 0 then "" else [NormalizeChar(s[0])] + NormalizeDecimal(s[1..])
  }

  predicate IsDigit(c: char) {
    '0' <= c <= '9'
  }

  /** Every character is a decimal digit (vacuously true of ""). */
  predicate AllDigits(s: string)
    decreases |s|
  {
    |s| == 0 || (IsDigit(s[0]) && AllDigits(s[1..]))
  }

  /** No character of `s` is one of `marks`. */
  predicate NoneOf(s: string, marks: set<char>)
    decreases |s|
  {
    |s| == 0 || (s[0] !in marks && NoneOf(s[1..], marks))
  }

  function DigitChar(d: nat): (c: char)
    requires d < 10
    ensures IsDigit(c) && c as int - '0' as int == d
  {
    ('0' as int + d) as char
  }

  function DigitOf(c: char): nat
    requires IsDigit(c)
  {
    c as int - '0' as int
  }

  function DigitsValueFrom(acc: nat, s: string): nat
    requires AllDigits(s)
    decreases |s|
  {
    if |s| == 0 then acc else DigitsValueFrom(10 * acc + DigitOf(s[0]), s[1..])
  }

  /** The number a string of decimal digits denotes (0 for the empty string). */
  function DigitsValue(s: string): nat
    requires AllDigits(s)
  {
    DigitsValueFrom(0, s)
  }

  lemma {:induction false} AllDigitsAppend(a: string, b: string)
    ensures AllDigits(a + b) <==> AllDigits(a) && AllDigits(b)
    decreases |a|
  {
    if |a| > 0 {
      assert (a + b)[0] == a[0];
      assert (a + b)[1..] == a[1..] + b;
      AllDigitsAppend(a[1..], b);
    } else {
      assert a + b == b;
    }
  }

  /** A digit string contains none of a set of non-digit marks. */
  lemma {:induction false} DigitsAvoid(s: string, marks: set<char>)
    requires AllDigits(s)
    requires forall c :: c in marks ==> !IsDigit(c)
    ensures NoneOf(s, marks)
    decreases |s|
  {
    if |s| > 0 {
      DigitsAvoid(s[1..], marks);
    }
  }

  lemma {:induction false} NoneOfAppend(a: string, b: string, marks: set<char>)
    ensures NoneOf(a + b, marks) <==> NoneOf(a, marks) && NoneOf(b, marks)
    decreases |a|
  {
    if |a| > 0 {
      assert (a + b)[0] == a[0];
      assert (a + b)[1..] == a[1..] + b;
      NoneOfAppend(a[1..], b, marks);
    } else {
      assert a + b == b;
    }
  }

  lemma {:induction false} DigitsValueFromAppend(acc: nat, s: string, c: char)
    requires AllDigits(s) && IsDigit(c)
    ensures AllDigits(s + [c])
    ensures DigitsValueFrom(acc, s + [c]) == 10 * DigitsValueFrom(acc, s) + DigitOf(c)
    decreases |s|
  {
    AllDigitsAppend(s, [c]);
    if |s| > 0 {
      assert (s + [c])[0] == s[0];
      assert (s + [c])[1..] == s[1..] + [c];
      DigitsValueFromAppend(10 * acc + DigitOf(s[0]), s[1..], c);
    } else {
      assert s + [c] == [c];
    }
  }

  /** Decimal rendering of a natural number, as `str(n)` prints it. */
  function ShowNat(n: nat): (r: string)
    ensures |r| >= 1 && AllDigits(r)
  {
    if n < 10 then
      assert AllDigits([DigitChar(n)][1..]);
      [DigitChar(n)]
    else
      var r := ShowNat(n / 10) + [DigitChar(n % 10)];
      AllDigitsAppend(ShowNat(n / 10), [DigitChar(n % 10)]);
      r
  }

  /** Decimal rendering of an integer, with a leading '-' when negative. */
  function ShowInt(n: int): string {
    if n < 0 then "-" + ShowNat(-n) else ShowNat(n)
  }

  /** Reading back what `ShowNat` printed gives the number again. */
  lemma {:induction false} ShowNatRoundTrip(n: nat)
    ensures DigitsValue(ShowNat(n)) == n
  {
    if n >= 10 {
      ShowNatRoundTrip(n / 10);
      DigitsValueFromAppend(0, ShowNat(n / 10), DigitChar(n % 10));
    } else {
      var s := ShowNat(n);
      assert s == [DigitChar(n)];
      assert s[1..] == "";
      assert DigitsValueFrom(0, s) == DigitsValueFrom(DigitOf(s[0]), s[1..]);
    }
  }

  lemma ShowNatInjective(m: nat, n: nat)
    ensures ShowNat(m) == ShowNat(n) ==> m == n
  {
    ShowNatRoundTrip(m);
    ShowNatRoundTrip(n);
  }

  lemma ShowIntSign(n: int)
    ensures |ShowInt(n)| >= 1 && (ShowInt(n)[0] == '-' <==> n < 0)
  {
  }

  lemma ShowIntInjective(m: int, n: int)
    ensures ShowInt(m) == ShowInt(n) ==> m == n
  {
    ShowIntSign(m);
    ShowIntSign(n);
    if ShowInt(m) == ShowInt(n) {
      if m < 0 && n < 0 {
        assert ShowNat(-m) == ShowInt(m)[1..] == ShowInt(n)[1..] == ShowNat(-n);
        ShowNatInjective(-m, -n);
      } else if m >= 0 && n >= 0 {
        ShowNatInjective(m, n);
      }
    }
  }

  /** Normalising twice is normalising once, and no comma survives. */
  lemma {:induction false} NormalizeDecimalIdempotent(s: string)
    ensures NormalizeDecimal(NormalizeDecimal(s)) == NormalizeDecimal(s)
    ensures ',' !in NormalizeDecimal(s)
    decreases |s|
  {
    if |s| > 0 {
      NormalizeDecimalIdempotent(s[1..]);
      var n := NormalizeDecimal(s);
      assert n[1..] == NormalizeDecimal(s[1..]);
    }
  }

  lemma {:induction false} NormalizeDecimalAppend(a: string, b: string)
    ensures NormalizeDecimal(a + b) == NormalizeDecimal(a) + NormalizeDecimal(b)
    decreases |a|
  {
    if |a| > 0 {
      assert (a + b)[0] == a[0];
      assert (a + b)[1..] == a[1..] + b;
      NormalizeDecimalAppend(a[1..], b);
    } else {
      assert a + b == b;
    }
  }

  /** Text without a comma is left as it is. */
  lemma {:induction false} NormalizeWithoutComma(s: string)
    requires NoneOf(s, {','})
    ensures NormalizeDecimal(s) == s
    decreases |s|
  {
    if |s| > 0 {
      NormalizeWithoutComma(s[1..]);
    }
  }

  lemma NormalizeDigits(s: string)
    requires AllDigits(s)
    ensures NormalizeDecimal(s) == s
  {
    DigitsAvoid(s, {','});
    NormalizeWithoutComma(s);
  }
}

=== FILE: validator.dfy ===
/** `DataProcessor._validate_data`: the signal table must not be empty and
    must have at least as many rows as the moving-average window. The
    reference table is not inspected. */
module Validator {
  import opened Outcomes
  import opened Frames
  import opened Loader

  /** Validation passes the signal through unchanged or names the problem. */
  function Validate(signal: Frame, window: int): (r: Result<Frame>)
    ensures r.Ok? <==> !signal.Empty() && signal.Rows() >= window
    ensures signal.Empty() ==> r == Err(EmptySignal)
    ensures !signal.Empty() && signal.Rows() < window ==> r == Err(InsufficientData(signal.Rows(), window))
    ensures r.Ok? ==> r.value == signal
  {
    if signal.Empty() then Err(EmptySignal)
    else if signal.Rows() < window then Err(InsufficientData(signal.Rows(), window))
    else Ok(signal)
  }

  /** A loaded table is never empty, so for it validation is exactly the
      row-count test. */
  lemma ValidateLoaded(path: string, read: Option<RawTable>, window: int)
    requires read.Some? ==> read.value.Rectangular()
    requires Load(path, read).Ok?
    ensures Validate(Load(path, read).value, window).Ok? <==> window <= read.value.rowCount
  {
  }
}

=== FILE: values.dfy ===
/** Table cells. Values are exact reals; `NaN` is the not-a-number that pandas
    writes where a label-aligned operation finds no partner row. */
module Values {

  datatype Value = Num(v: real) | NaN

  /** IEEE addition on exact reals: NaN is absorbing. */
  function Add(x: Value, y: Value): Value {
    if x.Num? && y.Num? then Num(x.v + y.v) else NaN
  }

  function Sub(x: Value, y: Value): Value {
    if x.Num? && y.Num? then Num(x.v - y.v) else NaN
  }

  function Scale(x: Value, k: real): Value {
    if x.Num? then Num(x.v * k) else NaN
  }

  predicate AllNum(xs: seq<Value>) {
    forall i :: 0 <= i < |xs| ==> xs[i].Num?
  }
}
